=== FILE: README.md ===
# Size-bounded string transforms of jl

jl renders the fields of structured log records, and `transform.go` holds
the transforms that fit a field to a display width. This project models five
of them:

- `Truncate(n)` keeps the first `n` runes.
- `Ellipsize(n)` keeps the two ends and puts one `…` in the middle.
- `LeftPad(n)` and `RightPad(n)` widen with spaces.
- `JvmClassPathFold(n)` abbreviates a dotted JVM class path such as
  `com.example.service.MyHandlerClass`.

It also models the `DisableTruncate` flag of the rendering `Context`, which
switches the shortening transforms off.

Strings are `seq<char>`, one `char` per rune. A Go run-time panic (slicing out
of range, indexing an empty string) is the `Panic` case of `Base.Outcome`.
No input the Go code accepts is excluded by a precondition, except the one
listed under "Left out".

## Modules

- `Base`: the context, the outcome type, and Go's truncating `x / 2`.
- `Strings`: Go's `strings.Split` on one separator, with `Join`, `Concat` and
  `Delete` as its partners.
- `Truncation`: `Truncate` and `Ellipsize`, cutting by rune position.
- `Padding`: `LeftPad` and `RightPad`.
- `CamelCase`: the regular-expression rewrite `(.)([A-Z]|\$+)` → `${1}_${2}`,
  written as an explicit leftmost, non-overlapping scan (`Mark`), followed by
  the split on `_` (`SubWords`).
- `ClassPathFold`: the fold itself, in two steps:
  - the class-name step (`FoldClassName`, `FoldWords`);
  - the right-to-left package loop (`FoldPackages`).

  Both thread the Go variables `remaining` and `doCompact` through recursive
  functions. `FirstOverflow`, `WholeStart` and `PackagesRendering` are
  second, recursive definitions of where each loop switches to compact mode
  and of what the package loop writes. Their closed forms are stated
  separately:
  - `Overflows` for the sub-word switch, proved by `FirstOverflowIsLeast`;
  - `WholeFrom` for the package switch, proved by `WholeStartIsLeast`;
  - `Min(n, Max(r, 0) / 2)` for the number of abbreviated segments, proved
    by `AbbreviatedCountIsHalf`.

  Lemmas tie each loop to these definitions.
- `FoldExamples`: worked inputs for the fold.
- `Utf8`: the byte-level behaviour of the Go code, which counts runes but
  slices bytes. It is compared with the rune-level model (see "Findings").
- `Transformers`: the `Transformer` interface as a datatype with a dispatcher.

## Behaviour worth knowing

The model follows the Go code in each of these points.

- **`Truncate` panics for a negative limit.** It slices `input[:t]` with
  `t < 0`, so `Truncation.Truncate` returns `Panic`.
- **`Ellipsize` panics for `remain <= 0` on ASCII input that must be cut.**
  On multi-byte input the byte offsets can still fall inside the encoding:
  `é` at `remain == 0` completes with a lone `…`
  (`Utf8.EllipsizeZeroCompletes`).
- **The fold panics when a compact cut runs past the end of a sub-word**,
  e.g. `AbCdE` at width 4 (`FoldExamples.FoldPanics`).
- **The fold panics when it abbreviates an empty package segment**, e.g.
  `x..Yz` at width 4 (`FoldExamples.FoldEmptySegmentPanics`).
- **The `Ellipsize` split point uses Go's division**, which truncates toward
  zero (`Base.GoHalf`); it matters only for a negative budget.

## Model

| member | source | states |
|---|---|---|
| Base.GoHalf | transform.go:69 | Go's `int / 2` is the Euclidean quotient for non-negative operands and rounds toward zero for negative ones |
| Strings.Split | transform.go:87 | splitting yields at least one part and no part contains the separator |
| Strings.JoinSplit | transform.go:87 | joining the parts of a split with the separator gives back the input |
| Strings.SplitJoin | transform.go:87 | splitting the join of separator-free parts gives back the parts |
| Strings.ConcatSplit | transform.go:95 | concatenating the parts of a split is the input with every separator removed |
| Strings.LastPartIsSuffix | transform.go:87-88 | the last part of a split, the class name, is a suffix of the input |
| Truncation.Truncate | transform.go:45-53 | returns the input when truncation is disabled or the input has at most `limit` runes; otherwise returns the first `min(|input|, limit)` runes of the input; panics exactly when enabled with a negative limit |
| Truncation.TruncateIdempotent | transform.go:45-53 | truncating a truncated string changes nothing |
| Truncation.Ellipsize | transform.go:59-72 | returns the input when disabled or when it fits; otherwise the result has exactly `remain` runes: the input's first `(remain-1)/2` runes, one ellipsis, then the input's last runes, with the tail as long as the head or one longer; panics exactly when an input that must be cut meets `remain <= 0` |
| Truncation.EllipsizeIdempotent | transform.go:59-72 | an ellipsized string already fits, so a second pass leaves it unchanged |
| Truncation.EllipsizeExample | transform.go:67-71 | ten runes at width 5 give `ab…ij` |
| Padding.LeftPad | transform.go:133-144 | the result is `max(width, |input|)` runes wide; the input is a suffix of the result; everything before the input is a space |
| Padding.RightPad | transform.go:149-160 | the result is `max(width, |input|)` runes wide; the input is a prefix of the result; everything after the input is a space |
| Padding.PadUnchangedIff | transform.go:134-137 | padding returns the input unchanged if and only if the input is at least `width` runes wide, for both pads |
| Padding.PadIdempotent | transform.go:133-160 | padding a padded string again changes nothing |
| CamelCase.DollarRun | transform.go:95 | the greedy `\$+` match: the longest run of `$` at the front of the string |
| CamelCase.Mark | transform.go:95 | the rewrite never shortens the name and keeps its first rune; `MarkOnlyInserts` and `MarkChangesIff` state what it inserts, and for names without `_` `MarkSeparates` and `SubWordsMatchSites` state where |
| CamelCase.MarkOnlyInserts | transform.go:95 | the rewrite only inserts `_`: deleting all `_` from its output and from its input gives the same string |
| CamelCase.MarkChangesIff | transform.go:95 | the rewrite lengthens the string when some position is followed by an upper-case letter or a `$` (and is not a newline); otherwise it leaves the string unchanged |
| CamelCase.ConcatSubWords | transform.go:95 | concatenating the sub-words gives the class name without its underscores |
| CamelCase.SubWordRunes | transform.go:95 | every rune of a sub-word occurs in the class name and is not `_` |
| CamelCase.MarkSeparates | transform.go:95 | in a name without `_`, every `_` of the rewrite comes after a rune that is neither `_` nor a newline (what `.` matches) and before an upper-case letter or a `$` |
| CamelCase.SubWords | transform.go:95 | there is always at least one sub-word; `ConcatSubWords` and `SubWordRunes` state what they hold for every name, and for names without `_` `SubWordsShape` and `SubWordsMatchSites` state where the splits fall |
| CamelCase.SubWordsShape | transform.go:95 | for a non-empty name without `_`, every sub-word is non-empty, the first starts with the name's first rune, and each later one starts with an upper-case letter or a `$` |
| CamelCase.MarkWords | transform.go:95 | for a name without `_`, the split of the rewrite satisfies `WordsClean`: no match of `(.)([A-Z]|\$+)` starts in the first sub-word, none starts in a later one past the capital or the whole `$` run that opened it, and every sub-word between two others is longer than that opening run; the first sub-word starts with the name's first rune |
| CamelCase.SubWordsMatchSites | transform.go:95 | for a name without `_`: no match site lies in the first sub-word; in a later sub-word `w` no match site lies at or after position 1 when `w` opens with a capital, or at or after the end of its opening `$` run otherwise (the run is taken whole); and every inner sub-word is longer than what its opening match consumed, so every match the scan reaches was split and no two matches overlap |
| CamelCase.SubWordsExampleCamel | transform.go:95 | `MyHandlerClass` splits into `My`, `Handler` and `Class` |
| CamelCase.SubWordsExampleCapitals | transform.go:95 | `ABC` splits into `A` and `BC`: matches do not overlap |
| CamelCase.SubWordsExampleDollar | transform.go:95 | `Outer$Inner` splits into `Outer` and `$Inner` |
| CamelCase.SubWordsExampleUnderscore | transform.go:95 | `My_Class` splits into `My`, an empty sub-word and `Class`: the rewrite adds a second `_` before the capital |
| ClassPathFold.FoldWords | transform.go:96-109 | one piece per sub-word, each a prefix of its sub-word; once compact mode is on it stays on. Without compact mode the pieces are the sub-words and the budget drops by their total length. In compact mode the budget ends at 0; the first piece has `cut + 1` runes and every later piece has 2; when called in compact mode the loop completes exactly when those lengths fit the sub-words (`FoldWordsCompletes` gives the condition for a call outside compact mode, `FoldWordsCuts` the piece lengths once compact mode starts there) |
| ClassPathFold.FirstOverflowIsLeast | transform.go:97-100 | `FirstOverflow` is the least index whose sub-word, with those before it and one rune reserved for each later one, exceeds the budget |
| ClassPathFold.FoldWordsCompletes | transform.go:96-109 | started outside compact mode, the sub-word loop completes if and only if every sub-word fits, or, with `f` the first overflowing sub-word, the budget left after the sub-words before `f` is at least `|words| - f - 2` and every sub-word after `f` has at least two runes |
| ClassPathFold.FoldWordsSwitch | transform.go:96-109 | compact mode is entered exactly when some sub-word overflows; the sub-words before the first overflowing one are kept verbatim; the rendering is one rune over the budget for every sub-word from that one on (`FoldWordsCuts` gives each piece's length) |
| ClassPathFold.FoldWordsCuts | transform.go:96-109 | when the loop, started outside compact mode, enters compact mode at the first overflowing sub-word `f`, the piece for `f` has one rune more than the budget left after the whole sub-words before it and one rune reserved for each later sub-word, and every later piece has 2 runes |
| ClassPathFold.FoldClassName | transform.go:91-110 | a class name that fits is kept verbatim and the budget drops by its length; one that does not fit but whose sub-words do loses only its underscores; a compacted one is longer than the budget and leaves a budget of 0 |
| ClassPathFold.FoldPackages | transform.go:112-126 | the package rendering never exceeds the remaining budget; in compact mode with at most one rune left it is empty; with no empty segment it never panics; `FoldPackagesMatches` gives the exact result |
| ClassPathFold.WholeStartIsLeast | transform.go:112-113 | every segment from `WholeStart` on fails the switch test `i*2+1+len(parts[i]) >= remaining` against the budget left by the whole segments to its right, and the segment just before `WholeStart` passes it |
| ClassPathFold.AbbreviatedCountIsHalf | transform.go:116-119 | compact mode abbreviates `min(n, max(remaining, 0) / 2)` of the `n` segments it reaches, two runes each |
| ClassPathFold.CompactPhase | transform.go:115-119 | in compact mode the last `AbbreviatedCount` segments become their first rune and a dot, the rest are dropped, and the loop panics exactly when one of the abbreviated segments is empty |
| ClassPathFold.WholePhase | transform.go:112-124 | outside compact mode the segments from `WholeStart` on are written whole with their dots, and the loop then goes on in compact mode with the budget they left |
| ClassPathFold.FoldPackagesMatches | transform.go:112-126 | on every input the package loop equals `PackagesRendering`: segments from the switch point `b` whole, the `min(b, max(R_b, 0) / 2)` segments before `b` abbreviated (`R_b` the budget left at `b`), the rest dropped; it panics if and only if one of the abbreviated segments is empty |
| ClassPathFold.PackagesShape | transform.go:112-126 | the surviving packages form a contiguous run ending at the class name, in order, with first-letter abbreviations before whole segments; in compact mode every survivor is abbreviated |
| ClassPathFold.PackagesSplit | transform.go:112-126 | the package rendering is the first letters of segments `a..b` followed by segments `b..` written whole; every abbreviated segment is non-empty; in compact mode `b` is the end of the list; otherwise every segment from `b` on fails the switch test against the budget left to it and the one before `b` passes it; `b - a` is `min(b, max(R_b, 0) / 2)` with `R_b` the budget left at `b` |
| ClassPathFold.JvmClassPathFold | transform.go:77-128 | returns the input when disabled or when it fits; when the class name fits, the result fits the width and ends with the class name; a result over the width contains no dot |
| ClassPathFold.ClassName | transform.go:87-88 | the class name contains no dot and is a suffix of the input |
| ClassPathFold.Packages | transform.go:87-88 | no package segment contains a dot |
| ClassPathFold.ClassPathRoundTrip | transform.go:87-88 | the package segments followed by the class name, joined with dots, give back the input |
| ClassPathFold.FoldShape | transform.go:85-127 | three cases. If the class name fits, the result is a package run followed by the class name. If only its sub-words fit, the result is a package run followed by the name without underscores. Otherwise the result holds no package, starts with the sub-words before the first overflowing one, is `|words| - f` runes over the width, and is the concatenation of prefixes of the sub-words whose lengths `FoldWordsCuts` gives (`CompactCut`) |
| ClassPathFold.FoldRendersPackages | transform.go:85-127 | when the class name is not compacted, the result is `PackagesRendering` of the package list on the budget the class name left, followed by the class name (verbatim, or without its underscores) |
| ClassPathFold.ClassNameKept | transform.go:91-109 | a class name that fits the width, or whose sub-words all fit, leaves compact mode off: it is rendered verbatim, or without its underscores, and the budget drops by exactly its rendered length |
| ClassPathFold.CompactedHasNoDot | transform.go:95-109 | a rebuilt class name contains no dot |
| FoldExamples.FoldHandler20 | transform.go:112-126 | `com.example.service.MyHandlerClass` at width 20 gives `c.e.s.MyHandlerClass` |
| FoldExamples.FoldHandler28 | transform.go:112-126 | the same path at width 28 gives `c.e.service.MyHandlerClass` |
| FoldExamples.FoldHandler5 | transform.go:96-109 | the same path at width 5 gives `MyHanCl`: `My` is kept, `Handler` and `Class` are cut, all packages are dropped |
| FoldExamples.HandlerCutIsUnique | transform.go:96-109 | at width 5 the only pieces of `My`, `Handler`, `Class` with the cut lengths of compact mode started at `Handler` are `My`, `Han`, `Cl` |
| FoldExamples.FoldPanics | transform.go:103 | `AbCdE` at width 4 slices `E` past its end, so Go panics |
| FoldExamples.HandlerForXPanics | transform.go:96-105 | the sub-words `Handler`, `For`, `X` at width 8: `Handler` overflows at once and the cut for `X` runs past its end, so Go panics |
| FoldExamples.FoldEmptySegmentPanics | transform.go:112-119 | `x..Yz` at width 4 takes the first rune of the empty segment, so Go panics |
| Utf8.Encode | transform.go:49-52 | the byte string Go slices has at least as many bytes as the string has runes, and exactly as many on ASCII |
| Utf8.EncodeAscii | transform.go:49-52 | on ASCII each rune is the single byte holding its code, so byte and rune positions coincide |
| Utf8.TruncateAsWritten | transform.go:45-53 | the byte-slicing Truncate returns the encoded input when disabled or when it fits; otherwise its result is the first `limit` bytes of the encoding; it panics exactly for a negative limit |
| Utf8.TruncateAgreesOnAscii | transform.go:49-52 | on ASCII input the byte-level and rune-level Truncate agree |
| Utf8.TruncateSplitsRune | transform.go:49-52 | `éa` cut to 1 gives the single byte 0xC3, which is the encoding of no string |
| Utf8.EllipsizeAsWritten | transform.go:59-72 | the byte-offset Ellipsize returns the encoded input when disabled or when it fits; on an input that must be cut it completes for `remain >= 1`, panics for `remain < 0`, and at `remain == 0` completes exactly when the input has a multi-byte rune; a completed cut is `remain + 2` bytes plus the bytes the encoding adds over the rune count |
| Utf8.EllipsizeAgreesOnAscii | transform.go:63-71 | on ASCII input the byte-offset and rune-offset Ellipsize agree |
| Utf8.EllipsizeKeepsTooMuch | transform.go:63-71 | `éa` at width 1 keeps `…a`, two runes, where the rune-level transform gives `…` |
| Utf8.EllipsizeZeroCompletes | transform.go:63-71 | `é` at width 0 completes with a lone `…` at the byte level, where the rune-level transform panics |
| Transformers.Transform | transform.go:23-26 | with `DisableTruncate` every shortening transform returns its input; the pads never panic and never shorten; Truncate and Ellipsize never lengthen |
| Transformers.PadsIgnoreContext | transform.go:133-160 | the pads give the same result under every context |
| Transformers.TransformIdempotent | transform.go:45-160 | every transform except the fold is idempotent |

## Left out

- `UpperCase`, `LowerCase` (transform.go:35-40): thin wrappers over Go's Unicode case mapping, which is not part of this model.
- `Format` (transform.go:162-167): it hands the input to `fmt.Sprintf`, which is not part of this model.
- `TimeFormatter` (transform.go:169-177): it depends on the `dateparse` library, the local time zone and Go's time layouts, none of which are part of this model.
- `TransformFunc` (transform.go:28-33): it only adapts a plain function to the interface.
- `Context.DisableColor` is carried but read by none of the modelled transforms.
- ClassPathFold.JvmClassPathFold: requires ASCII input whenever the fold actually runs (enabled and longer than `cap`). There the Go code measures and slices the class name and its sub-words in bytes but compares the whole input's rune count with `cap`; only the byte-level model of `Truncate` and `Ellipsize` exists.
- Integer width: Go's `int` is 64-bit and the model's integers are unbounded. Lengths and widths that overflow 64 bits do not arise from real strings.
- Invalid UTF-8: a Go string may hold arbitrary bytes, while the model's strings are sequences of Unicode scalar values.
- CamelCase.Mark: where the rewrite puts its underscores (`MarkSeparates`, `MarkWords`, `SubWordsMatchSites`) is characterised only for names without `_`. An `_` already in the name is itself matched by `.`, so `a_B` becomes `a__B`; the split then yields empty sub-words, and the invariant the proofs carry (every sub-word after the first is non-empty and opens a match) does not hold. What the rewrite inserts (`MarkOnlyInserts`, `MarkChangesIff`) holds for every name.
- CamelCase.SubWords: where the splits fall (`SubWordsShape`, `SubWordsMatchSites`) is characterised only for names without `_`, for the same reason. For every name, the sub-words' concatenation and runes are stated (`ConcatSubWords`, `SubWordRunes`), and the fold's lemmas about sub-words hold for any list of sub-words.
- Transformer chaining, where the output of one transform feeds the next, happens in code that is not part of this model.

## Findings

| source | as written | input that shows it | evidently intended | confidence | as-written member | corrected member |
|---|---|---|---|---|---|---|
| transform.go:49-52 | counts runes to decide whether to cut, then keeps the first `t` bytes | `éa` with `Truncate(1)` keeps the byte 0xC3, half of `é`, which is not valid UTF-8 | keep the first `t` runes | high; not executed | Utf8.TruncateSplitsRune | Truncation.Truncate |
| transform.go:63-71 | computes `start` and `end` in runes, then uses them as byte offsets | `éa` with `Ellipsize(1)` gives `…a`, two runes for a width of one | cut at rune offsets, giving `…` | high; not executed | Utf8.EllipsizeKeepsTooMuch | Truncation.Ellipsize |

=== FILE: base.dfy ===
/**
  Shared vocabulary of the transforms: the rendering context handed to every
  transform, the outcome of a transform (a string, or a Go run-time panic),
  and small facts about strings and Go integer arithmetic.
 */
module Base {

  /** The per-render flags passed to every transform. `original` is the text
      before any chained transform ran; `disableColor` is read by none of the
      modelled transforms. */
  datatype Context = Context(original: string, disableColor: bool, disableTruncate: bool)

  /** What a transform produces. Go slicing out of range does not return: it
      panics, which the model records as `Panic`. */
  datatype Outcome<+T> = Done(value: T) | Panic {

    predicate IsFailure() {
      Panic?
    }

    function PropagateFailure<U>(): Outcome<U>
      requires Panic?
    {
      Panic
    }

    function Extract(): T
      requires Done?
    {
      value
    }
  }

  /** Every character is a one-byte UTF-8 rune, so rune and byte positions coincide. */
  predicate IsAscii(s: string) {
    forall i :: 0 <= i < |s| ==> s[i] as int < 128
  }

  /** `t` is a (not necessarily proper) suffix of `s`. */
  predicate IsSuffix(t: string, s: string) {
    |t| <= |s| && s[|s| - |t|..] == t
  }

  function Min(a: int, b: int): int {
    if a <= b then a else b
  }

  function Max(a: int, b: int): int {
    if a >= b then a else b
  }

  /** Go's `x / 2` on `int`: the quotient is truncated toward zero, unlike
      Dafny's Euclidean division, which differs for negative odd `x`. */
  function GoHalf(x: int): (q: int)
    ensures x >= 0 ==> q == x / 2
    ensures x < 0 ==> x <= 2 * q <= x + 1
  {
    if x >= 0 then x / 2 else -((-x) / 2)
  }
}

=== FILE: camel_case.dfy ===
/**
  The split of a class name into camel-case sub-words. The Go code rewrites
  every leftmost, non-overlapping match of the regular expression
  `(.)([A-Z]|\$+)` to `${1}_${2}` and then splits on `_`; `Mark` is that
  rewrite as an explicit left-to-right scan.
 */
module CamelCase {
  import opened Strings

  predicate IsUpper(c: char) {
    'A' <= c <= 'Z'
  }

  /** The pattern can match starting at position `i` of `s`: any rune but a
      newline (what `.` matches), then a capital or a `$`. */
  predicate BoundaryAt(s: string, i: int) {
    0 <= i && i + 1 < |s| && s[i] != '\n' && (IsUpper(s[i + 1]) || s[i + 1] == '$')
  }

  /** Length of the run of `$` that starts `s`; `\$+` is greedy and takes it all. */
  function DollarRun(s: string): (n: nat)
    ensures n <= |s|
    ensures forall k :: 0 <= k < n ==> s[k] == '$'
    ensures n == |s| || s[n] != '$'
    decreases |s|
  {
    if |s| == 0 || s[0] != '$' then 0 else 1 + DollarRun(s[1..])
  }

  /** The regexp replacement: an underscore goes between the two groups of
      each match; the scan resumes after the match, so matches never overlap. */
  function Mark(s: string): (t: string)
    ensures |t| >= |s|
    ensures |s| > 0 ==> t[0] == s[0]
    decreases |s|
  {
    if |s| < 2 then s
    else if s[0] != '\n' && IsUpper(s[1]) then [s[0], '_', s[1]] + Mark(s[2..])
    else if s[0] != '\n' && s[1] == '$' then
      var n := DollarRun(s[1..]);
      [s[0], '_'] + s[1..1 + n] + Mark(s[1 + n..])
    else [s[0]] + Mark(s[1..])
  }

  /** The sub-words of a class name (`classNameParts`). */
  function SubWords(name: string): (words: seq<string>)
    ensures |words| >= 1
  {
    Split(Mark(name), '_')
  }

  /** The rewrite only inserts underscores. */
  lemma {:induction false} MarkOnlyInserts(s: string)
    ensures Delete(Mark(s), '_') == Delete(s, '_')
    decreases |s|
  {
    if |s| >= 2 {
      if s[0] != '\n' && IsUpper(s[1]) {
        MarkOnlyInserts(s[2..]);
        InsertsCapital(s);
      } else if s[0] != '\n' && s[1] == '$' {
        MarkOnlyInserts(s[1 + DollarRun(s[1..])..]);
        InsertsDollars(s);
      } else {
        MarkOnlyInserts(s[1..]);
        InsertsNothing(s);
      }
    }
  }

  lemma InsertsCapital(s: string)
    requires |s| >= 2 && s[0] != '\n' && IsUpper(s[1])
    requires Delete(Mark(s[2..]), '_') == Delete(s[2..], '_')
    ensures Delete(Mark(s), '_') == Delete(s, '_')
  {
    MarkCapitalStep(s);
    DeleteInserted(s[0], [s[1]], Mark(s[2..]), s[2..]);
    assert s == [s[0]] + [s[1]] + s[2..];
  }

  lemma InsertsDollars(s: string)
    requires |s| >= 2 && s[0] != '\n' && s[1] == '$'
    requires var n := DollarRun(s[1..]);
      Delete(Mark(s[1 + n..]), '_') == Delete(s[1 + n..], '_')
    ensures Delete(Mark(s), '_') == Delete(s, '_')
  {
    var n := DollarRun(s[1..]);
    MarkDollarStep(s, n, s[1..1 + n]);
    DeleteInserted(s[0], s[1..1 + n], Mark(s[1 + n..]), s[1 + n..]);
    HeadAndCut(s, 1 + n);
  }

  lemma HeadAndCut(s: string, k: nat)
    requires 1 <= k <= |s|
    ensures s == [s[0]] + s[1..k] + s[k..]
  {
    assert s[..k] == [s[0]] + s[1..k];
    assert s == s[..k] + s[k..];
  }

  lemma InsertsNothing(s: string)
    requires |s| >= 2 && !(s[0] != '\n' && IsUpper(s[1])) && !(s[0] != '\n' && s[1] == '$')
    requires Delete(Mark(s[1..]), '_') == Delete(s[1..], '_')
    ensures Delete(Mark(s), '_') == Delete(s, '_')
  {
    DeleteAppend([s[0]], Mark(s[1..]), '_');
    DeleteAppend([s[0]], s[1..], '_');
    assert s == [s[0]] + s[1..];
  }

  /** Deleting underscores forgets the one a match inserted. */
  lemma DeleteInserted(c: char, d: string, m: string, rest: string)
    requires Delete(m, '_') == Delete(rest, '_')
    ensures Delete([c, '_'] + d + m, '_') == Delete([c] + d + rest, '_')
  {
    DeleteAppend([c, '_'] + d, m, '_');
    DeleteAppend([c, '_'], d, '_');
    DeleteAppend([c] + d, rest, '_');
    DeleteAppend([c], d, '_');
    assert Delete([c, '_'], '_') == Delete([c], '_');
  }

  /** The rewrite changes the name exactly when the pattern occurs in it. */
  lemma {:induction false} MarkChangesIff(s: string)
    ensures (exists i :: BoundaryAt(s, i)) ==> |Mark(s)| > |s|
    ensures (!exists i :: BoundaryAt(s, i)) ==> Mark(s) == s
    decreases |s|
  {
    if |s| >= 2 && !BoundaryAt(s, 0) {
      MarkChangesIff(s[1..]);
      if exists i :: BoundaryAt(s, i) {
        var i :| BoundaryAt(s, i);
        assert BoundaryAt(s[1..], i - 1);
      } else {
        forall i ensures !BoundaryAt(s[1..], i) {
          assert BoundaryAt(s[1..], i) ==> BoundaryAt(s, i + 1);
        }
        assert s == [s[0]] + s[1..];
      }
    } else if |s| < 2 {
      assert forall i :: !BoundaryAt(s, i);
    }
  }

  /** The sub-words hold every rune of the name except its underscores, in order. */
  lemma ConcatSubWords(name: string)
    ensures Concat(SubWords(name)) == Delete(name, '_')
  {
    ConcatSplit(Mark(name), '_');
    MarkOnlyInserts(name);
  }

  /** The rewrite introduces no rune other than the underscore. */
  lemma {:induction false} MarkRunes(s: string)
    ensures forall j :: 0 <= j < |Mark(s)| ==> Mark(s)[j] == '_' || Mark(s)[j] in s
    decreases |s|
  {
    if |s| >= 2 {
      if s[0] != '\n' && IsUpper(s[1]) {
        MarkRunes(s[2..]);
      } else if s[0] != '\n' && s[1] == '$' {
        MarkRunes(s[1 + DollarRun(s[1..])..]);
      } else {
        MarkRunes(s[1..]);
      }
    }
  }

  /** A sub-word only holds runes of the name, never an underscore. */
  lemma SubWordRunes(name: string)
    ensures forall k, j :: 0 <= k < |SubWords(name)| && 0 <= j < |SubWords(name)[k]| ==>
      SubWords(name)[k][j] in name && SubWords(name)[k][j] != '_'
  {
    MarkRunes(name);
    SplitRunes(Mark(name), '_');
  }

  /** A rune that can open a sub-word after the first: a capital or a `$`. */
  predicate StartsWord(c: char) {
    IsUpper(c) || c == '$'
  }

  /** Every underscore of `t` sits between a rune that is neither an
      underscore nor a newline (what `.` matches) and a rune that opens a
      sub-word. */
  ghost predicate Separated(t: string) {
    forall j :: 0 <= j < |t| && t[j] == '_' ==>
      0 < j < |t| - 1 && t[j - 1] != '_' && t[j - 1] != '\n' && StartsWord(t[j + 1])
  }

  /** In a name without underscores, the rewrite puts each underscore it adds
      between the two groups of a match: after a rune that is not an
      underscore or a newline, before a capital or a `$`. */
  lemma {:induction false} MarkSeparates(s: string)
    requires '_' !in s
    ensures Separated(Mark(s))
    decreases |s|
  {
    if |s| >= 2 {
      if s[0] != '\n' && IsUpper(s[1]) {
        assert '_' !in s[2..] by { assert forall c :: c in s[2..] ==> c in s; }
        MarkSeparates(s[2..]);
        SeparatedPrepend([s[0], '_', s[1]], Mark(s[2..]));
      } else if s[0] != '\n' && s[1] == '$' {
        var n := DollarRun(s[1..]);
        assert '_' !in s[1 + n..] by { assert forall c :: c in s[1 + n..] ==> c in s; }
        MarkSeparates(s[1 + n..]);
        var p := [s[0], '_'] + s[1..1 + n];
        forall j | 2 <= j < |p| ensures p[j] == s[j - 1] && p[j] in s { }
        SeparatedPrepend(p, Mark(s[1 + n..]));
      } else {
        assert '_' !in s[1..] by { assert forall c :: c in s[1..] ==> c in s; }
        MarkSeparates(s[1..]);
        SeparatedPrepend([s[0]], Mark(s[1..]));
      }
    } else {
      assert forall j :: 0 <= j < |s| ==> s[j] in s;
    }
  }

  /** Underscores inside a prefix, with both neighbours inside it, stay
      separated in front of a separated string that does not open with one. */
  lemma SeparatedPrepend(p: string, m: string)
    requires forall j :: 0 <= j < |p| && p[j] == '_' ==>
      0 < j < |p| - 1 && p[j - 1] != '_' && p[j - 1] != '\n' && StartsWord(p[j + 1])
    requires Separated(m) && (|m| > 0 ==> m[0] != '_')
    ensures Separated(p + m)
  {
    var t := p + m;
    forall j | 0 <= j < |t| && t[j] == '_'
      ensures 0 < j < |t| - 1 && t[j - 1] != '_' && t[j - 1] != '\n' && StartsWord(t[j + 1])
    {
      if j >= |p| {
        var k := j - |p|;
        assert m[k] == '_';
        assert m[k - 1] == t[j - 1] && m[k + 1] == t[j + 1];
      }
    }
  }

  /** Dropping a prefix that is not followed by an underscore keeps the
      underscores separated. */
  lemma SeparatedDrop(t: string, d: nat)
    requires Separated(t) && d < |t| && t[d] != '_'
    ensures Separated(t[d..])
  {
    var u := t[d..];
    forall j | 0 <= j < |u| && u[j] == '_'
      ensures 0 < j < |u| - 1 && u[j - 1] != '_' && u[j - 1] != '\n' && StartsWord(u[j + 1])
    {
      assert t[j + d] == '_';
    }
  }

  /** Splitting a separated string that does not open with an underscore
      gives non-empty parts, each after the first opening with a capital or
      a `$`. */
  lemma {:induction false} SplitSeparated(t: string)
    requires |t| > 0 && t[0] != '_' && Separated(t)
    ensures forall k :: 0 <= k < |Split(t, '_')| ==> |Split(t, '_')[k]| > 0
    ensures forall k :: 1 <= k < |Split(t, '_')| ==> StartsWord(Split(t, '_')[k][0])
    ensures Split(t, '_')[0][0] == t[0]
    decreases |t|
  {
    var parts := Split(t, '_');
    var rest := Split(t[1..], '_');
    assert parts == [[t[0]] + rest[0]] + rest[1..];
    if |t| == 1 {
      assert rest == [""];
    } else if t[1] == '_' {
      var u := t[2..];
      assert t[1..][1..] == u;
      assert rest == [""] + Split(u, '_');
      SeparatedDrop(t, 2);
      SplitSeparated(u);
      assert rest[0] == "" && rest[1..] == Split(u, '_');
      assert [t[0]] + rest[0] == [t[0]];
    } else {
      SeparatedDrop(t, 1);
      SplitSeparated(t[1..]);
    }
  }

  /** The sub-words of a non-empty name without underscores are non-empty,
      and each one after the first opens with a capital or a run of `$`:
      the sub-word boundaries are exactly the places the pattern matched. */
  lemma SubWordsShape(name: string)
    requires |name| > 0 && '_' !in name
    ensures forall k :: 0 <= k < |SubWords(name)| ==> |SubWords(name)[k]| > 0
    ensures forall k :: 1 <= k < |SubWords(name)| ==> StartsWord(SubWords(name)[k][0])
    ensures SubWords(name)[0][0] == name[0]
  {
    MarkSeparates(name);
    SplitSeparated(Mark(name));
  }

  /** No match of the pattern starts at or after position `st` of `w`. */
  ghost predicate Clean(w: string, st: int) {
    forall i :: st <= i ==> !BoundaryAt(w, i)
  }

  /** The runes at the front of a later sub-word that the match opening it
      consumed: one capital, or the whole run of `$` (`\$+` is greedy). */
  function Consumed(w: string): nat {
    if |w| > 0 && IsUpper(w[0]) then 1 else DollarRun(w)
  }

  /** What the leftmost, non-overlapping scan leaves in the sub-words: no
      match starts in the first sub-word, nor in a later one past the runes
      its opening match consumed; and a sub-word followed by another ends in
      a rune that the match before it did not consume. */
  ghost predicate WordsClean(parts: seq<string>) {
    && |parts| >= 1
    && Clean(parts[0], 0)
    && (forall k :: 1 <= k < |parts| ==> Clean(parts[k], Consumed(parts[k])))
    && (forall k :: 1 <= k < |parts| - 1 ==> Consumed(parts[k]) < |parts[k]|)
  }

  /** Every match of the pattern that the scan reaches gets its underscore,
      the scan resumes after the whole match (so matches never overlap), and
      `\$+` takes the whole run of dollars: for a name without `_`, no match
      starts inside a sub-word except on the runes that opened it, and every
      sub-word between two others is longer than what its opening match
      consumed. */
  lemma SubWordsMatchSites(name: string)
    requires '_' !in name
    ensures forall i :: !BoundaryAt(SubWords(name)[0], i)
    ensures forall k, i :: 1 <= k < |SubWords(name)| && Consumed(SubWords(name)[k]) <= i ==>
      !BoundaryAt(SubWords(name)[k], i)
    ensures forall k :: 1 <= k < |SubWords(name)| - 1 ==> Consumed(SubWords(name)[k]) < |SubWords(name)[k]|
  {
    MarkWords(name);
    var w := SubWords(name);
    forall i ensures !BoundaryAt(w[0], i) {
      if 0 <= i {
        assert Clean(w[0], 0);
      }
    }
    forall k, i | 1 <= k < |w| && Consumed(w[k]) <= i ensures !BoundaryAt(w[k], i) {
      assert Clean(w[k], Consumed(w[k]));
    }
  }

  /** `WordsClean` for the sub-words of `s`, with what the induction needs
      about the first one. */
  ghost predicate MarkedWords(s: string) {
    var parts := Split(Mark(s), '_');
    && WordsClean(parts)
    && (|s| > 0 ==> |parts[0]| > 0 && parts[0][0] == s[0])
    && (|parts| > 1 ==> |s| > 0)
  }

  lemma {:induction false} MarkWords(s: string)
    requires '_' !in s
    ensures MarkedWords(s)
    decreases |s|
  {
    if |s| < 2 {
      SplitWhole(s, '_');
      assert Clean(s, 0);
    } else if s[0] != '\n' && IsUpper(s[1]) {
      assert '_' !in s[2..] by { assert forall c :: c in s[2..] ==> c in s; }
      MarkWords(s[2..]);
      MarkWordsCapital(s);
    } else if s[0] != '\n' && s[1] == '$' {
      var n := DollarRun(s[1..]);
      assert '_' !in s[1 + n..] by { assert forall c :: c in s[1 + n..] ==> c in s; }
      MarkWords(s[1 + n..]);
      MarkWordsDollar(s);
    } else {
      assert '_' !in s[1..] by { assert forall c :: c in s[1..] ==> c in s; }
      MarkWords(s[1..]);
      MarkWordsPlain(s);
    }
  }

  lemma MarkWordsCapital(s: string)
    requires '_' !in s
    requires |s| >= 2 && s[0] != '\n' && IsUpper(s[1])
    requires MarkedWords(s[2..])
    ensures MarkedWords(s)
  {
    var r := Split(Mark(s[2..]), '_');
    CapitalSplit(s);
    CapitalWords(s[0], s[1], r);
  }

  lemma CapitalSplit(s: string)
    requires '_' !in s
    requires |s| >= 2 && s[0] != '\n' && IsUpper(s[1])
    ensures var r := Split(Mark(s[2..]), '_');
      Split(Mark(s), '_') == [[s[0]]] + ([[s[1]] + r[0]] + r[1..])
  {
    assert s[0] in s;
    MarkCapitalStep(s);
    OpenSplit(s[0], [s[1]], Mark(s[2..]));
  }

  lemma MarkCapitalStep(s: string)
    requires |s| >= 2 && s[0] != '\n' && IsUpper(s[1])
    ensures Mark(s) == [s[0], '_'] + [s[1]] + Mark(s[2..])
  {
    assert [s[0], '_', s[1]] == [s[0], '_'] + [s[1]];
  }

  /** A match rewritten in front of the rest: the rune alone is one
      sub-word, and the second group opens the next. */
  lemma OpenSplit(c: char, d: string, m: string)
    requires c != '_' && '_' !in d
    ensures var r := Split(m, '_');
      Split([c, '_'] + d + m, '_') == [[c]] + ([d + r[0]] + r[1..])
  {
    assert [c, '_'] + d + m == [c] + ['_'] + (d + m);
    SplitAtFirst([c], d + m, '_');
    SplitPrefix(d, m, '_');
  }

  lemma MarkWordsDollar(s: string)
    requires '_' !in s
    requires |s| >= 2 && s[0] != '\n' && s[1] == '$'
    requires MarkedWords(s[1 + DollarRun(s[1..])..])
    ensures MarkedWords(s)
  {
    var n := DollarRun(s[1..]);
    var rest := s[1 + n..];
    var d := s[1..1 + n];
    DollarSplit(s, n, d);
    assert |rest| > 0 ==> rest[0] == s[1..][n];
    DollarWords(s[0], d, Split(Mark(rest), '_'));
  }

  lemma DollarSplit(s: string, n: nat, d: string)
    requires '_' !in s
    requires |s| >= 2 && s[0] != '\n' && s[1] == '$'
    requires n == DollarRun(s[1..]) && d == s[1..1 + n]
    ensures forall j :: 0 <= j < |d| ==> d[j] == '$'
    ensures var r := Split(Mark(s[1 + n..]), '_');
      Split(Mark(s), '_') == [[s[0]]] + ([d + r[0]] + r[1..])
  {
    assert s[0] in s;
    assert '_' !in d by { assert forall j :: 0 <= j < |d| ==> d[j] == s[1..][j]; }
    MarkDollarStep(s, n, d);
    OpenSplit(s[0], d, Mark(s[1 + n..]));
  }

  lemma MarkDollarStep(s: string, n: nat, d: string)
    requires |s| >= 2 && s[0] != '\n' && s[1] == '$'
    requires n == DollarRun(s[1..]) && d == s[1..1 + n]
    ensures Mark(s) == [s[0], '_'] + d + Mark(s[1 + n..])
  {
    assert !IsUpper(s[1]);
  }

  lemma MarkWordsPlain(s: string)
    requires '_' !in s
    requires |s| >= 2 && !(s[0] != '\n' && IsUpper(s[1])) && !(s[0] != '\n' && s[1] == '$')
    requires MarkedWords(s[1..])
    ensures MarkedWords(s)
  {
    var r := Split(Mark(s[1..]), '_');
    PlainSplit(s);
    PlainWords(s[0], r);
  }

  lemma PlainSplit(s: string)
    requires '_' !in s
    requires |s| >= 2 && !(s[0] != '\n' && IsUpper(s[1])) && !(s[0] != '\n' && s[1] == '$')
    ensures var r := Split(Mark(s[1..]), '_');
      Split(Mark(s), '_') == [[s[0]] + r[0]] + r[1..]
  {
    assert s[0] in s;
    var m := Mark(s[1..]);
    assert Mark(s) == [s[0]] + m;
    SplitPrefix([s[0]], m, '_');
  }

  /** A match of a rune and a capital: the rune ends one sub-word, the
      capital opens the next. */
  lemma CapitalWords(c: char, u: char, r: seq<string>)
    requires IsUpper(u) && WordsClean(r) && (|r| > 1 ==> |r[0]| > 0)
    ensures WordsClean([[c]] + ([[u] + r[0]] + r[1..]))
  {
    var parts := [[c]] + ([[u] + r[0]] + r[1..]);
    CleanShift([u], r[0], 0);
    assert Consumed([u] + r[0]) == 1;
    forall k | 1 <= k < |parts| ensures Clean(parts[k], Consumed(parts[k])) {
      if k > 1 {
        assert parts[k] == r[k - 1];
      }
    }
    forall k | 1 <= k < |parts| - 1 ensures Consumed(parts[k]) < |parts[k]| {
      if k > 1 {
        assert parts[k] == r[k - 1];
      }
    }
    assert Clean(parts[0], 0);
  }

  /** A match of a rune and a run of dollars: the rune ends one sub-word,
      the whole run opens the next. */
  lemma DollarWords(c: char, d: string, r: seq<string>)
    requires |d| > 0 && forall j :: 0 <= j < |d| ==> d[j] == '$'
    requires WordsClean(r) && (|r| > 1 ==> |r[0]| > 0)
    requires |r[0]| > 0 ==> r[0][0] != '$'
    ensures WordsClean([[c]] + ([d + r[0]] + r[1..]))
  {
    var parts := [[c]] + ([d + r[0]] + r[1..]);
    CleanShift(d, r[0], 0);
    DollarRunOf(d, r[0]);
    forall k | 1 <= k < |parts| ensures Clean(parts[k], Consumed(parts[k])) {
      if k > 1 {
        assert parts[k] == r[k - 1];
      }
    }
    forall k | 1 <= k < |parts| - 1 ensures Consumed(parts[k]) < |parts[k]| {
      if k > 1 {
        assert parts[k] == r[k - 1];
      }
    }
    assert Clean(parts[0], 0);
  }

  /** No match at the first rune: it joins the first sub-word of the rest. */
  lemma PlainWords(c: char, r: seq<string>)
    requires WordsClean(r)
    requires !(c != '\n' && |r[0]| > 0 && StartsWord(r[0][0]))
    ensures WordsClean([[c] + r[0]] + r[1..])
  {
    var parts := [[c] + r[0]] + r[1..];
    CleanShift([c], r[0], 0);
    forall i | 0 <= i ensures !BoundaryAt(parts[0], i) {
      if i == 0 && |r[0]| > 0 {
        assert parts[0][1] == r[0][0];
      }
    }
    forall k | 1 <= k < |parts| ensures Clean(parts[k], Consumed(parts[k])) {
      assert parts[k] == r[k];
    }
    forall k | 1 <= k < |parts| - 1 ensures Consumed(parts[k]) < |parts[k]| {
      assert parts[k] == r[k];
    }
  }

  lemma CleanShift(c: string, w: string, st: nat)
    requires Clean(w, st)
    ensures Clean(c + w, |c| + st)
  {
    forall i | |c| + st <= i ensures !BoundaryAt(c + w, i) {
      if BoundaryAt(c + w, i) {
        assert (c + w)[i] == w[i - |c|] && (c + w)[i + 1] == w[i - |c| + 1];
        assert BoundaryAt(w, i - |c|);
      }
    }
  }

  /** A run of dollars followed by anything but a dollar is the whole run. */
  lemma {:induction false} DollarRunOf(d: string, x: string)
    requires forall j :: 0 <= j < |d| ==> d[j] == '$'
    requires |x| > 0 ==> x[0] != '$'
    ensures DollarRun(d + x) == |d|
    decreases |d|
  {
    if |d| > 0 {
      assert (d + x)[1..] == d[1..] + x;
      DollarRunOf(d[1..], x);
    } else {
      assert d + x == x;
    }
  }

  /** The scan copies a stretch in which the pattern cannot start. */
  lemma {:induction false} MarkPlainPrefix(a: string, rest: string)
    requires forall i :: 0 <= i < |a| ==> !BoundaryAt(a + rest, i)
    ensures Mark(a + rest) == a + Mark(rest)
    decreases |a|
  {
    if |a| > 0 {
      var s := a + rest;
      NoBoundaryShift(a, rest);
      MarkPlainPrefix(a[1..], rest);
      MarkCopiesOne(s);
      Regroup(a, rest, Mark(rest));
    } else {
      assert a + rest == rest;
    }
  }

  lemma Regroup(a: string, rest: string, m: string)
    requires |a| > 0
    ensures (a + rest)[0] == a[0] && (a + rest)[1..] == a[1..] + rest
    ensures [a[0]] + (a[1..] + m) == a + m
  {
    assert a == [a[0]] + a[1..];
  }

  lemma NoBoundaryShift(a: string, rest: string)
    requires |a| > 0
    requires forall i :: 0 <= i < |a| ==> !BoundaryAt(a + rest, i)
    ensures !BoundaryAt(a + rest, 0)
    ensures forall i :: 0 <= i < |a| - 1 ==> !BoundaryAt(a[1..] + rest, i)
  {
    var s := a + rest;
    assert s[1..] == a[1..] + rest;
    forall i | 0 <= i < |a| - 1 ensures !BoundaryAt(a[1..] + rest, i) {
      assert !BoundaryAt(s, i + 1);
    }
  }

  /** Where no match starts, the scan copies one rune and moves on. */
  lemma MarkCopiesOne(s: string)
    requires |s| > 0 && !BoundaryAt(s, 0)
    ensures Mark(s) == [s[0]] + Mark(s[1..])
  {
    if |s| < 2 {
      assert s[1..] == [];
      assert s == [s[0]];
    }
  }

  /** The scan copies a stretch with no match, then rewrites a match of a
      rune and a capital. */
  lemma MarkThroughCapital(a: string, rest: string)
    requires |rest| >= 2 && rest[0] != '\n' && IsUpper(rest[1])
    requires forall i :: 0 <= i < |a| ==> !BoundaryAt(a + rest, i)
    ensures Mark(a + rest) == a + [rest[0], '_', rest[1]] + Mark(rest[2..])
  {
    MarkPlainPrefix(a, rest);
  }

  /** The scan copies a stretch with no match, then rewrites a match of a
      rune and a run of `n` dollars. */
  lemma MarkThroughDollars(a: string, rest: string, n: nat)
    requires |rest| >= 2 && rest[0] != '\n' && rest[1] == '$'
    requires n == DollarRun(rest[1..])
    requires forall i :: 0 <= i < |a| ==> !BoundaryAt(a + rest, i)
    ensures Mark(a + rest) == a + [rest[0], '_'] + rest[1..1 + n] + Mark(rest[1 + n..])
  {
    MarkPlainPrefix(a, rest);
  }

  lemma MarkExampleCamel(name: string)
    requires name == "MyHandlerClass"
    ensures Mark(name) == "My_Handler_Class"
  {
    MarkExampleHandler(name);
    MarkExampleHead(name);
    assert "My_H" + "andler_Class" == "My_Handler_Class";
  }

  /** `My` has no match at `M`; the match `yH` follows. */
  lemma MarkExampleHead(name: string)
    requires |name| >= 3 && name[0] == 'M' && name[1] == 'y' && name[2] == 'H'
    ensures Mark(name) == "My_H" + Mark(name[3..])
  {
    MarkCopiesOne(name);
    var m := Mark(name[3..]);
    assert name[1..][2..] == name[3..];
    assert Mark(name[1..]) == ['y', '_', 'H'] + m;
    assert ['M'] + (['y', '_', 'H'] + m) == "My_H" + m;
  }

  lemma MarkExampleHandler(name: string)
    requires name == "MyHandlerClass"
    ensures Mark(name[3..]) == "andler_Class"
  {
    MarkExampleClass(name);
    MarkThroughCapital(name[3..8], name[8..]);
    assert name[3..] == name[3..8] + name[8..];
    assert name[3..8] + [name[8], '_', name[9]] + Mark(name[10..]) == "andler_Class";
  }

  lemma MarkExampleClass(name: string)
    requires name == "MyHandlerClass"
    ensures Mark(name[10..]) == "lass"
  {
    var tail := name[10..];
    MarkPlainPrefix(tail, "");
    assert tail + "" == tail;
  }

  lemma SubWordsExampleCamel(name: string)
    requires name == "MyHandlerClass"
    ensures SubWords(name) == ["My", "Handler", "Class"]
  {
    MarkExampleCamel(name);
    assert Join(["My", "Handler", "Class"], '_') == "My_Handler_Class";
    SplitJoin(["My", "Handler", "Class"], '_');
  }

  /** Matches do not overlap: the `B` that ends one match cannot start the next. */
  lemma SubWordsExampleCapitals(name: string)
    requires name == "ABC"
    ensures SubWords(name) == ["A", "BC"]
  {
    MarkThroughCapital("", name);
    assert "" + name == name;
    assert name[2..] == "C";
    assert Mark(name) == "A_BC";
    assert Join(["A", "BC"], '_') == "A_BC";
    SplitJoin(["A", "BC"], '_');
  }

  lemma MarkExampleDollar(name: string)
    requires name == "Outer$Inner"
    ensures Mark(name) == "Outer_$Inner"
  {
    var tail := name[6..];
    assert Mark(tail) == "Inner" by {
      MarkPlainPrefix(tail, "");
      assert tail + "" == tail;
    }
    assert DollarRun(name[5..]) == 1;
    MarkThroughDollars(name[..4], name[4..], 1);
    assert name == name[..4] + name[4..];
  }

  /** A run of dollars opens a sub-word (a nested class). */
  lemma SubWordsExampleDollar(name: string)
    requires name == "Outer$Inner"
    ensures SubWords(name) == ["Outer", "$Inner"]
  {
    MarkExampleDollar(name);
    assert Join(["Outer", "$Inner"], '_') == "Outer_$Inner";
    SplitJoin(["Outer", "$Inner"], '_');
  }

  lemma MarkExampleUnderscore(name: string)
    requires name == "My_Class"
    ensures Mark(name) == "My__Class"
  {
    var tail := name[4..];
    MarkPlainPrefix(tail, "");
    assert tail + "" == tail;
    MarkThroughCapital(name[..2], name[2..]);
    assert name[2..][2..] == tail;
    assert name == name[..2] + name[2..];
    assert name[..2] + [name[2], '_', name[3]] + tail == "My__Class";
  }

  /** An underscore already in the name splits as well; before a capital it
      leaves an empty sub-word between the two underscores. */
  lemma SubWordsExampleUnderscore(name: string)
    requires name == "My_Class"
    ensures SubWords(name) == ["My", "", "Class"]
  {
    MarkExampleUnderscore(name);
    assert Join(["My", "", "Class"], '_') == "My__Class";
    SplitJoin(["My", "", "Class"], '_');
  }
}

=== FILE: class_path_fold.dfy ===
/**
  `JvmClassPathFold(cap)`: abbreviate a dotted JVM class path such as
  `com.example.service.MyHandlerClass` to about `cap` runes. The class name
  (the last segment) is kept whole if it fits; otherwise its camel-case
  sub-words are kept whole until one does not fit, and from then on each is
  cut short. The package segments are then walked right to left: kept whole,
  then reduced to their first letter and a dot, then dropped. The Go code
  threads a running budget `remaining` and a `doCompact` flag through both
  loops; the model threads the same two values through two recursive
  functions.
 */
module ClassPathFold {
  import opened Base
  import opened Strings
  import opened CamelCase

  /** The state after the sub-word loop: what each sub-word contributed, the
      budget left, and whether compact mode was entered. */
  datatype WordsFold = WordsFold(pieces: seq<string>, remaining: int, compact: bool)

  /** The sub-word loop. `|words| - 1` is `remainingUpperLetters`: one rune is
      reserved for every sub-word still to come. A sub-word is kept whole while
      it fits next to that reserve; the first one that does not switches on
      compact mode, where a sub-word contributes `cut + 1` runes but the budget
      drops only by `cut`. Slicing past either end of a sub-word panics. */
  function FoldWords(words: seq<string>, remaining: int, compact: bool): (r: Outcome<WordsFold>)
    ensures r.Done? ==> |r.value.pieces| == |words|
    ensures r.Done? ==> forall k :: 0 <= k < |words| ==> r.value.pieces[k] <= words[k]
    ensures r.Done? && compact ==> r.value.compact
    ensures r.Done? && !r.value.compact ==>
      r.value.pieces == words && r.value.remaining == remaining - |Concat(words)|
    ensures r.Done? && !r.value.compact && |words| > 0 ==> r.value.remaining >= 0
    ensures r.Done? && r.value.compact && |words| > 0 ==> r.value.remaining == 0
    ensures compact && |words| > 0 ==>
      (r.Done? <==>
        && 0 <= remaining - |words| + 2 <= |words[0]|
        && forall k :: 1 <= k < |words| ==> 2 <= |words[k]|)
    ensures r.Done? && compact && |words| > 0 ==>
      && |r.value.pieces[0]| == remaining - |words| + 2
      && forall k :: 1 <= k < |words| ==> |r.value.pieces[k]| == 2
    decreases |words|
  {
    if |words| == 0 then Done(WordsFold([], remaining, compact))
    else
      var v := words[0];
      var after := |words| - 1;
      if compact || |v| + after > remaining then
        var cut := remaining - after;
        if 0 <= cut + 1 <= |v| then
          var rest :- FoldWords(words[1..], remaining - cut, true);
          Done(WordsFold([v[..cut + 1]] + rest.pieces, rest.remaining, true))
        else
          Panic
      else
        var rest :- FoldWords(words[1..], remaining - |v|, false);
        Done(WordsFold([v] + rest.pieces, rest.remaining, rest.compact))
  }

  /** Sub-word `k` does not fit: the sub-words up to and including it, plus one
      rune for each sub-word after it, need more than `remaining`. */
  ghost predicate Overflows(words: seq<string>, remaining: int, k: int)
    requires 0 <= k < |words|
  {
    |Concat(words[..k + 1])| + (|words| - k - 1) > remaining
  }

  lemma {:induction false} ConcatOfPairs(ps: seq<string>)
    requires forall k :: 0 <= k < |ps| ==> |ps[k]| == 2
    ensures |Concat(ps)| == 2 * |ps|
    decreases |ps|
  {
    if |ps| > 0 {
      ConcatOfPairs(ps[1..]);
    }
  }

  /** Dropping the first sub-word shifts the overflow test by one position. */
  lemma OverflowsShift(words: seq<string>, remaining: int, k: int)
    requires 0 <= k && k + 1 < |words|
    ensures Overflows(words, remaining, k + 1) <==> Overflows(words[1..], remaining - |words[0]|, k)
  {
    var front := words[..k + 2];
    assert front[1..] == words[1..][..k + 1];
    assert Concat(front) == front[0] + Concat(front[1..]);
  }

  /** The index of the first sub-word that does not fit, or `|words|` when
      all of them fit, found by walking the sub-words with the budget. */
  function FirstOverflow(words: seq<string>, remaining: int): (f: nat)
    ensures f <= |words|
    decreases |words|
  {
    if |words| == 0 then 0
    else if |words[0]| + (|words| - 1) > remaining then 0
    else 1 + FirstOverflow(words[1..], remaining - |words[0]|)
  }

  /** `FirstOverflow` is the least overflowing index in the sense of `Overflows`. */
  lemma {:induction false} FirstOverflowIsLeast(words: seq<string>, remaining: int)
    ensures forall k :: 0 <= k < FirstOverflow(words, remaining) ==> !Overflows(words, remaining, k)
    ensures FirstOverflow(words, remaining) < |words| ==>
      Overflows(words, remaining, FirstOverflow(words, remaining))
    decreases |words|
  {
    if |words| > 0 {
      var v := words[0];
      var rem' := remaining - |v|;
      assert words[..1] == [v];
      assert Concat(words[..1]) == v + Concat([]);
      if |v| + (|words| - 1) <= remaining {
        FirstOverflowIsLeast(words[1..], rem');
        var f := FirstOverflow(words, remaining);
        forall k | 0 <= k < f ensures !Overflows(words, remaining, k) {
          if k > 0 {
            OverflowsShift(words, remaining, k - 1);
          }
        }
        if f < |words| {
          OverflowsShift(words, remaining, f - 1);
        }
      }
    }
  }

  /** When the sub-word loop, started outside compact mode, completes: either
      every sub-word fits, or from the first overflowing one `f` the budget
      left leaves at least one rune for `f` itself and every later sub-word
      has the two runes its cut needs. */
  ghost predicate WordsComplete(words: seq<string>, remaining: int, f: nat)
    requires f <= |words|
  {
    || f == |words|
    || (&& remaining - |Concat(words[..f])| >= |words| - f - 2
        && forall k :: f < k < |words| ==> |words[k]| >= 2)
  }

  lemma {:induction false} FoldWordsCompletes(words: seq<string>, remaining: int)
    ensures FoldWords(words, remaining, false).Done? <==>
      WordsComplete(words, remaining, FirstOverflow(words, remaining))
    decreases |words|
  {
    if |words| > 0 {
      var v := words[0];
      if |v| + (|words| - 1) > remaining {
        CompletesAtHead(words, remaining);
      } else {
        FoldWordsCompletes(words[1..], remaining - |v|);
        CompletesAfterHead(words, remaining);
      }
    }
  }

  /** The first sub-word already overflows: the loop is in compact mode from
      the start. */
  lemma CompletesAtHead(words: seq<string>, remaining: int)
    requires |words| > 0 && |words[0]| + (|words| - 1) > remaining
    ensures FirstOverflow(words, remaining) == 0
    ensures FoldWords(words, remaining, false).Done? <==> WordsComplete(words, remaining, 0)
  {
    assert FoldWords(words, remaining, false) == FoldWords(words, remaining, true);
    assert words[..0] == [];
  }

  /** The first sub-word fits: it is kept whole and the loop goes on. */
  lemma CompletesAfterHead(words: seq<string>, remaining: int)
    requires |words| > 0 && |words[0]| + (|words| - 1) <= remaining
    requires FoldWords(words[1..], remaining - |words[0]|, false).Done? <==>
      WordsComplete(words[1..], remaining - |words[0]|, FirstOverflow(words[1..], remaining - |words[0]|))
    ensures FoldWords(words, remaining, false).Done? <==>
      WordsComplete(words, remaining, FirstOverflow(words, remaining))
  {
    var f' := FirstOverflow(words[1..], remaining - |words[0]|);
    assert FirstOverflow(words, remaining) == f' + 1;
    assert FoldWords(words, remaining, false).Done? <==>
      FoldWords(words[1..], remaining - |words[0]|, false).Done?;
    CompleteShift(words, remaining, f');
  }

  /** Keeping the first sub-word whole shifts the completion condition by one. */
  lemma CompleteShift(words: seq<string>, remaining: int, f': nat)
    requires |words| > 0 && f' <= |words| - 1
    ensures WordsComplete(words, remaining, f' + 1) <==>
      WordsComplete(words[1..], remaining - |words[0]|, f')
  {
    var tail := words[1..];
    assert words[..f' + 1] == [words[0]] + tail[..f'];
    assert Concat(words[..f' + 1]) == words[0] + Concat(tail[..f']);
    assert (forall k :: f' + 1 < k < |words| ==> |words[k]| >= 2) <==>
      (forall k :: f' < k < |tail| ==> |tail[k]| >= 2) by {
      forall k | f' < k < |tail| ensures tail[k] == words[k + 1] { }
    }
  }

  /** The sub-word loop against its budget: it enters compact mode exactly
      when some sub-word overflows; the sub-words before the first
      overflowing one `f` are then kept whole, and the class name comes out
      `|words| - f` runes longer than the budget, one rune for every cut
      sub-word. */
  lemma {:induction false} FoldWordsSwitch(words: seq<string>, remaining: int)
    requires FoldWords(words, remaining, false).Done?
    ensures var w := FoldWords(words, remaining, false).value;
      var f := FirstOverflow(words, remaining);
      && (w.compact <==> f < |words|)
      && (w.compact ==> w.pieces[..f] == words[..f] && |Concat(w.pieces)| == remaining + |words| - f)
    decreases |words|
  {
    if |words| > 0 {
      if |words[0]| + (|words| - 1) > remaining {
        SwitchAtHead(words, remaining);
      } else {
        FoldWordsSwitch(words[1..], remaining - |words[0]|);
        SwitchAfterHead(words, remaining);
      }
    }
  }

  lemma SwitchAtHead(words: seq<string>, remaining: int)
    requires |words| > 0 && |words[0]| + (|words| - 1) > remaining
    requires FoldWords(words, remaining, false).Done?
    ensures FoldWords(words, remaining, false).value.compact
    ensures |Concat(FoldWords(words, remaining, false).value.pieces)| == remaining + |words|
  {
    var v := words[0];
    var n := |words|;
    var w := FoldWords(words, remaining, false).value;
    var rest := FoldWords(words[1..], n - 1, true).value;
    assert w.pieces == [v[..remaining - n + 2]] + rest.pieces;
    assert w.pieces[1..] == rest.pieces;
    ConcatOfPairs(rest.pieces);
  }

  lemma SwitchAfterHead(words: seq<string>, remaining: int)
    requires |words| > 0 && |words[0]| + (|words| - 1) <= remaining
    requires FoldWords(words, remaining, false).Done?
    requires var rem' := remaining - |words[0]|;
      var rest := FoldWords(words[1..], rem', false);
      var f' := FirstOverflow(words[1..], rem');
      && rest.Done?
      && (rest.value.compact <==> f' < |words| - 1)
      && (rest.value.compact ==>
            rest.value.pieces[..f'] == words[1..][..f'] && |Concat(rest.value.pieces)| == rem' + |words| - 1 - f')
    ensures var w := FoldWords(words, remaining, false).value;
      var f := FirstOverflow(words, remaining);
      && (w.compact <==> f < |words|)
      && (w.compact ==> w.pieces[..f] == words[..f] && |Concat(w.pieces)| == remaining + |words| - f)
  {
    var v := words[0];
    var rem' := remaining - |v|;
    var w := FoldWords(words, remaining, false).value;
    var rest := FoldWords(words[1..], rem', false).value;
    assert w.pieces == [v] + rest.pieces && w.compact == rest.compact;
    PrependWhole(v, words[1..], rem', rest.pieces, w.pieces, w.compact, FirstOverflow(words[1..], rem'));
    assert words == [v] + words[1..];
  }

  /** Keeping one more sub-word `v` whole in front shifts the first overflow
      by one and keeps the overrun. */
  lemma PrependWhole(v: string, tail: seq<string>, rem': int, rpieces: seq<string>, pieces: seq<string>, compact: bool, f': nat)
    requires pieces == [v] + rpieces
    requires compact ==> f' <= |rpieces| && f' <= |tail| && rpieces[..f'] == tail[..f'] && |Concat(rpieces)| == rem' + |tail| - f'
    ensures compact ==>
      && pieces[..f' + 1] == ([v] + tail)[..f' + 1]
      && |Concat(pieces)| == (rem' + |v|) + |[v] + tail| - (f' + 1)
  {
    if compact {
      assert pieces[..f' + 1] == [v] + rpieces[..f'];
      assert ([v] + tail)[..f' + 1] == [v] + tail[..f'];
      assert Concat(pieces) == v + Concat(rpieces);
    }
  }

  /** How many runes each sub-word keeps once compact mode starts at the first
      overflowing sub-word `f`: `f` keeps what the budget leaves after the
      whole sub-words before it and one rune reserved for each later one,
      plus the rune compact mode adds; every later sub-word keeps two. */
  lemma {:induction false} FoldWordsCuts(words: seq<string>, remaining: int)
    requires FoldWords(words, remaining, false).Done?
    ensures var w := FoldWords(words, remaining, false).value;
      var f := FirstOverflow(words, remaining);
      w.compact ==>
        && f < |words|
        && |w.pieces[f]| == remaining - |Concat(words[..f])| - (|words| - f - 1) + 1
        && forall k :: f < k < |words| ==> |w.pieces[k]| == 2
    decreases |words|
  {
    if |words| > 0 {
      if |words[0]| + (|words| - 1) > remaining {
        CutsAtHead(words, remaining);
      } else {
        FoldWordsCuts(words[1..], remaining - |words[0]|);
        CutsAfterHead(words, remaining);
      }
    }
  }

  lemma CutsAtHead(words: seq<string>, remaining: int)
    requires |words| > 0 && |words[0]| + (|words| - 1) > remaining
    requires FoldWords(words, remaining, false).Done?
    ensures FirstOverflow(words, remaining) == 0
    ensures var w := FoldWords(words, remaining, false).value;
      && |w.pieces[0]| == remaining - |Concat(words[..0])| - (|words| - 1) + 1
      && forall k :: 0 < k < |words| ==> |w.pieces[k]| == 2
  {
    assert FoldWords(words, remaining, false) == FoldWords(words, remaining, true);
    assert words[..0] == [];
  }

  lemma CutsAfterHead(words: seq<string>, remaining: int)
    requires |words| > 0 && |words[0]| + (|words| - 1) <= remaining
    requires FoldWords(words, remaining, false).Done?
    requires var rem' := remaining - |words[0]|;
      var tail := words[1..];
      var rest := FoldWords(tail, rem', false);
      var f' := FirstOverflow(tail, rem');
      && rest.Done?
      && (rest.value.compact ==>
            && f' < |tail|
            && |rest.value.pieces[f']| == rem' - |Concat(tail[..f'])| - (|tail| - f' - 1) + 1
            && forall k :: f' < k < |tail| ==> |rest.value.pieces[k]| == 2)
    ensures var w := FoldWords(words, remaining, false).value;
      var f := FirstOverflow(words, remaining);
      w.compact ==>
        && f < |words|
        && |w.pieces[f]| == remaining - |Concat(words[..f])| - (|words| - f - 1) + 1
        && forall k :: f < k < |words| ==> |w.pieces[k]| == 2
  {
    var w := FoldWords(words, remaining, false).value;
    var rest := FoldWords(words[1..], remaining - |words[0]|, false).value;
    assert w.pieces == [words[0]] + rest.pieces && w.compact == rest.compact;
    if w.compact {
      PrependCuts(words, remaining, rest.pieces, w.pieces, FirstOverflow(words[1..], remaining - |words[0]|));
    }
  }

  /** Keeping the first sub-word whole shifts the cut lengths by one
      position and leaves the budget each cut sees unchanged. */
  lemma PrependCuts(words: seq<string>, remaining: int, rpieces: seq<string>, pieces: seq<string>, f': nat)
    requires |words| > 0 && pieces == [words[0]] + rpieces && |rpieces| == |words| - 1 && f' < |words| - 1
    requires var tail := words[1..];
      && |rpieces[f']| == (remaining - |words[0]|) - |Concat(tail[..f'])| - (|tail| - f' - 1) + 1
      && forall k :: f' < k < |tail| ==> |rpieces[k]| == 2
    ensures |pieces[f' + 1]| == remaining - |Concat(words[..f' + 1])| - (|words| - (f' + 1) - 1) + 1
    ensures forall k :: f' + 1 < k < |words| ==> |pieces[k]| == 2
  {
    var tail := words[1..];
    assert words[..f' + 1] == [words[0]] + tail[..f'];
    assert Concat(words[..f' + 1]) == words[0] + Concat(tail[..f']);
    forall k | f' + 1 < k < |words| ensures |pieces[k]| == 2 {
      assert pieces[k] == rpieces[k - 1];
    }
  }

  /** The state after the class-name step: its rendering, the budget left
      for the packages, and whether compact mode was entered. */
  datatype ClassFold = ClassFold(text: string, remaining: int, compact: bool)

  /** The class-name step: kept verbatim when it fits the budget, otherwise
      rebuilt from its sub-words (which drops any `_` it contained). */
  function FoldClassName(name: string, remaining: int): (r: Outcome<ClassFold>)
    ensures |name| <= remaining ==> r == Done(ClassFold(name, remaining - |name|, false))
    ensures r.Done? ==> r.value.remaining >= 0
    ensures r.Done? && !r.value.compact ==> |r.value.text| + r.value.remaining == remaining
    ensures r.Done? && !r.value.compact && |name| > remaining ==> r.value.text == Delete(name, '_')
    ensures r.Done? && r.value.compact ==> r.value.remaining == 0 && |r.value.text| > remaining
  {
    if |name| <= remaining then
      Done(ClassFold(name, remaining - |name|, false))
    else
      var words := SubWords(name);
      var folded :- FoldWords(words, remaining, false);
      FoldWordsSwitch(words, remaining);
      ConcatSubWords(name);
      assert folded.compact ==> |Concat(folded.pieces)| > remaining;
      Done(ClassFold(Concat(folded.pieces), folded.remaining, folded.compact))
  }

  /** The package loop, right to left. `|pkgs| - 1` is the forward index `i`
      of the segment at hand; `2 * i + 1` reserves a letter and a dot for each
      segment to its left plus its own dot. Compact mode abbreviates a segment
      to its first rune and a dot while more than one rune of budget is left,
      and drops it otherwise. Taking the first rune of an empty segment panics. */
  function FoldPackages(pkgs: seq<string>, remaining: int, compact: bool): (r: Outcome<string>)
    ensures r.Done? ==> |r.value| <= Max(remaining, 0)
    ensures compact && remaining <= 1 ==> r == Done("")
    ensures (forall k :: 0 <= k < |pkgs| ==> |pkgs[k]| > 0) ==> r.Done?
    decreases |pkgs|
  {
    if |pkgs| == 0 then Done("")
    else
      var i := |pkgs| - 1;
      var segment := pkgs[i];
      if compact || i * 2 + 1 + |segment| >= remaining then
        if remaining > 1 then
          if |segment| == 0 then
            Panic
          else
            var left :- FoldPackages(pkgs[..i], remaining - 2, true);
            Done(left + [segment[0], '.'])
        else
          FoldPackages(pkgs[..i], remaining, true)
      else
        var left :- FoldPackages(pkgs[..i], remaining - |segment| - 1, false);
        Done(left + segment + ".")
  }

  /** Each segment followed by a dot. */
  function Dotted(segs: seq<string>): string
    decreases |segs|
  {
    if |segs| == 0 then "" else Dotted(segs[..|segs| - 1]) + segs[|segs| - 1] + "."
  }

  /** The first rune of each segment followed by a dot. */
  function Initials(segs: seq<string>): string
    requires AllNonEmpty(segs)
    decreases |segs|
  {
    if |segs| == 0 then "" else Initials(segs[..|segs| - 1]) + [segs[|segs| - 1][0], '.']
  }

  /** Every segment is non-empty, so each has a first rune to abbreviate to. */
  predicate AllNonEmpty(segs: seq<string>) {
    forall k :: 0 <= k < |segs| ==> |segs[k]| > 0
  }

  /** `out` renders a contiguous run of packages ending at the class name:
      segments `a..b` abbreviated, segments `b..` whole, the rest dropped.
      In compact mode nothing is kept whole. */
  ghost predicate KeptSuffix(pkgs: seq<string>, out: string, compact: bool) {
    exists a, b ::
      && 0 <= a <= b <= |pkgs|
      && (compact ==> b == |pkgs|)
      && (forall j :: 0 <= j < |pkgs[a..b]| ==> |pkgs[a..b][j]| > 0)
      && out == Initials(pkgs[a..b]) + Dotted(pkgs[b..])
  }

  /** The packages that survive are a suffix of the package list, in order,
      the abbreviated ones before the whole ones. */
  lemma PackagesShape(pkgs: seq<string>, remaining: int, compact: bool)
    requires FoldPackages(pkgs, remaining, compact).Done?
    ensures KeptSuffix(pkgs, FoldPackages(pkgs, remaining, compact).value, compact)
  {
    var a, b := PackagesSplit(pkgs, remaining, compact);
  }

  /** Where the whole run starts when the loop begins outside compact mode:
      segments are kept whole from the right for as long as the switch test
      fails, each charging its length and its dot to the budget. */
  function WholeStart(pkgs: seq<string>, remaining: int): (b: nat)
    ensures b <= |pkgs|
    decreases |pkgs|
  {
    if |pkgs| == 0 then 0
    else
      var i := |pkgs| - 1;
      if i * 2 + 1 + |pkgs[i]| >= remaining then |pkgs|
      else WholeStart(pkgs[..i], remaining - |pkgs[i]| - 1)
  }

  /** Splitting off the last segment of a tail of the package list. */
  lemma DottedLast(pkgs: seq<string>, j: int)
    requires 0 <= j < |pkgs|
    ensures Dotted(pkgs[j..]) == Dotted(pkgs[..|pkgs| - 1][j..]) + pkgs[|pkgs| - 1] + "."
  {
    var w := pkgs[j..];
    assert w[..|w| - 1] == pkgs[..|pkgs| - 1][j..];
  }

  /** Read against the switch test `i * 2 + 1 + |segment| >= remaining` of
      the Go loop, with the budget each segment sees: every segment from `b`
      on fails the test against the budget left after the whole segments to
      its right, so it is kept whole, and the segment just before `b` passes
      it, so compact mode starts there. */
  ghost predicate WholeFrom(pkgs: seq<string>, remaining: int, b: int)
    requires 0 <= b <= |pkgs|
  {
    && (forall j :: b <= j < |pkgs| ==> j * 2 + 1 + |pkgs[j]| < remaining - |Dotted(pkgs[j + 1..])|)
    && (b > 0 ==> (b - 1) * 2 + 1 + |pkgs[b - 1]| >= remaining - |Dotted(pkgs[b..])|)
  }

  /** `WholeStart` is where the switch test first succeeds, right to left. */
  lemma {:induction false} WholeStartIsLeast(pkgs: seq<string>, remaining: int)
    ensures WholeFrom(pkgs, remaining, WholeStart(pkgs, remaining))
    decreases |pkgs|
  {
    var n := |pkgs|;
    if n > 0 {
      var i := n - 1;
      if i * 2 + 1 + |pkgs[i]| < remaining {
        var rem' := remaining - |pkgs[i]| - 1;
        assert WholeStart(pkgs, remaining) == WholeStart(pkgs[..i], rem');
        WholeStartIsLeast(pkgs[..i], rem');
        WholeFromExtends(pkgs, remaining, WholeStart(pkgs[..i], rem'));
      } else {
        assert WholeStart(pkgs, remaining) == n;
        WholeFromAtEnd(pkgs, remaining);
      }
    }
  }

  /** Where the switch test succeeds on the last segment, nothing is whole. */
  lemma WholeFromAtEnd(pkgs: seq<string>, remaining: int)
    requires |pkgs| > 0 && (|pkgs| - 1) * 2 + 1 + |pkgs[|pkgs| - 1]| >= remaining
    ensures WholeFrom(pkgs, remaining, |pkgs|)
  {
    assert pkgs[|pkgs|..] == [];
  }

  /** Keeping the last segment whole leaves the boundary where it was. */
  lemma WholeFromExtends(pkgs: seq<string>, remaining: int, b: int)
    requires 0 <= b < |pkgs|
    requires (|pkgs| - 1) * 2 + 1 + |pkgs[|pkgs| - 1]| < remaining
    requires WholeFrom(pkgs[..|pkgs| - 1], remaining - |pkgs[|pkgs| - 1]| - 1, b)
    ensures WholeFrom(pkgs, remaining, b)
  {
    var n := |pkgs|;
    var pre := pkgs[..n - 1];
    forall j | b <= j < n
      ensures j * 2 + 1 + |pkgs[j]| < remaining - |Dotted(pkgs[j + 1..])|
    {
      if j < n - 1 {
        DottedLast(pkgs, j + 1);
        assert pkgs[j] == pre[j];
      } else {
        assert pkgs[n..] == [];
      }
    }
    if b > 0 {
      DottedLast(pkgs, b);
      assert pkgs[b - 1] == pre[b - 1];
    }
  }

  /** How many segments compact mode abbreviates before the budget runs
      down to one rune: two runes each, as long as there are segments. */
  function AbbreviatedCount(n: nat, remaining: int): (k: nat)
    ensures k <= n
    decreases n
  {
    if n == 0 || remaining <= 1 then 0 else 1 + AbbreviatedCount(n - 1, remaining - 2)
  }

  /** In closed form: half the budget, rounded down, but no more segments
      than there are. */
  lemma {:induction false} AbbreviatedCountIsHalf(n: nat, remaining: int)
    ensures AbbreviatedCount(n, remaining) == Min(n, Max(remaining, 0) / 2)
    decreases n
  {
    if n > 0 && remaining > 1 {
      AbbreviatedCountIsHalf(n - 1, remaining - 2);
      assert Max(remaining - 2, 0) / 2 + 1 == Max(remaining, 0) / 2;
    }
  }

  /** The package loop once in compact mode: the last `AbbreviatedCount`
      segments become initials and the rest are dropped; it panics exactly
      when one of the abbreviated segments is empty. */
  ghost predicate CompactRenders(pkgs: seq<string>, remaining: int) {
    var a := |pkgs| - AbbreviatedCount(|pkgs|, remaining);
    FoldPackages(pkgs, remaining, true) ==
      if AllNonEmpty(pkgs[a..]) then Done(Initials(pkgs[a..])) else Panic
  }

  lemma {:induction false} CompactPhase(pkgs: seq<string>, remaining: int)
    ensures CompactRenders(pkgs, remaining)
    decreases |pkgs|
  {
    var n := |pkgs|;
    if n == 0 || remaining <= 1 {
      assert pkgs[n..] == [];
    } else {
      CompactPhase(pkgs[..n - 1], remaining - 2);
      CompactExtends(pkgs, remaining);
    }
  }

  /** One step of the package loop in compact mode with budget to spare:
      the last segment becomes its initial. */
  lemma AbbreviateStep(pkgs: seq<string>, remaining: int)
    requires |pkgs| > 0 && remaining > 1
    ensures var c := FoldPackages(pkgs[..|pkgs| - 1], remaining - 2, true);
      FoldPackages(pkgs, remaining, true) ==
        if |pkgs[|pkgs| - 1]| == 0 || c.Panic? then Panic
        else Done(c.value + [pkgs[|pkgs| - 1][0], '.'])
  {
  }

  /** Abbreviating the last segment extends the run of initials by one. */
  lemma CompactExtends(pkgs: seq<string>, remaining: int)
    requires |pkgs| > 0 && remaining > 1
    requires CompactRenders(pkgs[..|pkgs| - 1], remaining - 2)
    ensures CompactRenders(pkgs, remaining)
  {
    var n := |pkgs|;
    var pre := pkgs[..n - 1];
    var seg := pkgs[n - 1];
    AbbreviateStep(pkgs, remaining);
    var a := n - AbbreviatedCount(n, remaining);
    assert a == |pre| - AbbreviatedCount(|pre|, remaining - 2);
    var kept := pkgs[a..];
    assert kept[|kept| - 1] == seg;
    assert kept[..|kept| - 1] == pre[a..];
    if |seg| > 0 {
      assert AllNonEmpty(kept) <==> AllNonEmpty(pre[a..]) by {
        forall j | 0 <= j < |kept| - 1 ensures kept[j] == pre[a..][j] { }
      }
    }
  }

  /** The package loop outside compact mode: the segments from `b` on are
      kept whole, and the loop then carries on in compact mode with the
      budget they left. */
  ghost predicate WholeRenders(pkgs: seq<string>, remaining: int, b: int)
    requires 0 <= b <= |pkgs|
  {
    var c := FoldPackages(pkgs[..b], remaining - |Dotted(pkgs[b..])|, true);
    FoldPackages(pkgs, remaining, false) ==
      if c.Panic? then Panic else Done(c.value + Dotted(pkgs[b..]))
  }

  lemma {:induction false} WholePhase(pkgs: seq<string>, remaining: int)
    ensures WholeRenders(pkgs, remaining, WholeStart(pkgs, remaining))
    decreases |pkgs|
  {
    var n := |pkgs|;
    if n == 0 {
      assert pkgs[..0] == [] && pkgs[0..] == [];
      assert Dotted(pkgs[0..]) == "" && "" + "" == "";
    } else if (n - 1) * 2 + 1 + |pkgs[n - 1]| >= remaining {
      SwitchStep(pkgs, remaining);
    } else {
      var rem' := remaining - |pkgs[n - 1]| - 1;
      WholePhase(pkgs[..n - 1], rem');
      WholeRendersExtends(pkgs, remaining, WholeStart(pkgs[..n - 1], rem'));
    }
  }

  /** The step where the switch test succeeds behaves as compact mode does. */
  lemma SwitchStep(pkgs: seq<string>, remaining: int)
    requires |pkgs| > 0 && (|pkgs| - 1) * 2 + 1 + |pkgs[|pkgs| - 1]| >= remaining
    ensures WholeRenders(pkgs, remaining, |pkgs|)
  {
    var n := |pkgs|;
    assert pkgs[..n] == pkgs && pkgs[n..] == [];
    assert FoldPackages(pkgs, remaining, false) == FoldPackages(pkgs, remaining, true);
    var c := FoldPackages(pkgs, remaining, true);
    if c.Done? {
      assert c.value + Dotted([]) == c.value;
    }
  }

  /** One step of the package loop that keeps the last segment whole. */
  lemma KeepStep(pkgs: seq<string>, remaining: int)
    requires |pkgs| > 0 && (|pkgs| - 1) * 2 + 1 + |pkgs[|pkgs| - 1]| < remaining
    ensures var c := FoldPackages(pkgs[..|pkgs| - 1], remaining - |pkgs[|pkgs| - 1]| - 1, false);
      FoldPackages(pkgs, remaining, false) ==
        if c.Panic? then Panic else Done(c.value + pkgs[|pkgs| - 1] + ".")
  {
  }

  /** Keeping the last segment whole extends the whole run by one. */
  lemma WholeRendersExtends(pkgs: seq<string>, remaining: int, b: int)
    requires 0 <= b < |pkgs|
    requires (|pkgs| - 1) * 2 + 1 + |pkgs[|pkgs| - 1]| < remaining
    requires WholeRenders(pkgs[..|pkgs| - 1], remaining - |pkgs[|pkgs| - 1]| - 1, b)
    ensures WholeRenders(pkgs, remaining, b)
  {
    var n := |pkgs|;
    var pre := pkgs[..n - 1];
    var seg := pkgs[n - 1];
    KeepStep(pkgs, remaining);
    DottedLast(pkgs, b);
    var dp := Dotted(pre[b..]);
    var dk := Dotted(pkgs[b..]);
    assert |dk| == |dp| + |seg| + 1;
    assert pre[..b] == pkgs[..b];
    var c := FoldPackages(pre[..b], remaining - |seg| - 1 - |dp|, true);
    assert c == FoldPackages(pkgs[..b], remaining - |dk|, true);
    if c.Done? {
      AppendRegroup(c.value, dp, seg, dk);
    }
  }

  lemma AppendRegroup(x: string, dp: string, seg: string, dk: string)
    requires dk == dp + seg + "."
    ensures x + dp + seg + "." == x + dk
  {
  }

  /** An independent account of what the package loop produces: segments
      from `b` on whole, where `b` is `WholeStart` (or the end of the list
      in compact mode); the `AbbreviatedCount` segments before `b` as
      initials; the rest dropped; and a panic exactly when one of the
      abbreviated segments is empty. */
  function PackagesRendering(pkgs: seq<string>, remaining: int, compact: bool): Outcome<string> {
    RunRendering(pkgs, if compact then |pkgs| else WholeStart(pkgs, remaining), remaining)
  }

  /** `PackagesRendering` with the start of the whole run given. */
  function RunRendering(pkgs: seq<string>, b: nat, remaining: int): Outcome<string>
    requires b <= |pkgs|
  {
    var a := b - AbbreviatedCount(b, remaining - |Dotted(pkgs[b..])|);
    if AllNonEmpty(pkgs[a..b]) then Done(Initials(pkgs[a..b]) + Dotted(pkgs[b..])) else Panic
  }

  /** The package loop agrees with `PackagesRendering` on every input. */
  lemma FoldPackagesMatches(pkgs: seq<string>, remaining: int, compact: bool)
    ensures FoldPackages(pkgs, remaining, compact) == PackagesRendering(pkgs, remaining, compact)
  {
    if compact {
      CompactPhase(pkgs, remaining);
      CompactMatches(pkgs, remaining);
    } else {
      WholePhase(pkgs, remaining);
      WholeMatches(pkgs, remaining, WholeStart(pkgs, remaining));
    }
  }

  lemma CompactMatches(pkgs: seq<string>, remaining: int)
    requires CompactRenders(pkgs, remaining)
    ensures FoldPackages(pkgs, remaining, true) == RunRendering(pkgs, |pkgs|, remaining)
  {
    var n := |pkgs|;
    var a := n - AbbreviatedCount(n, remaining);
    assert pkgs[n..] == [] && pkgs[a..n] == pkgs[a..];
    if AllNonEmpty(pkgs[a..]) {
      assert Initials(pkgs[a..]) + Dotted([]) == Initials(pkgs[a..]);
    }
  }

  lemma WholeMatches(pkgs: seq<string>, remaining: int, b: nat)
    requires b <= |pkgs| && WholeRenders(pkgs, remaining, b)
    ensures FoldPackages(pkgs, remaining, false) == RunRendering(pkgs, b, remaining)
  {
    var rb := remaining - |Dotted(pkgs[b..])|;
    var a := b - AbbreviatedCount(b, rb);
    CompactPhase(pkgs[..b], rb);
    assert pkgs[..b][a..] == pkgs[a..b];
  }

  /** The boundaries of the run `KeptSuffix` speaks of, tied to the budget:
      `b` is where the Go loop's switch test first succeeds (right to left),
      and the abbreviated run `a..b` is as long as the budget left at `b`
      allows, at two runes a segment. */
  lemma PackagesSplit(pkgs: seq<string>, remaining: int, compact: bool) returns (a: int, b: int)
    requires FoldPackages(pkgs, remaining, compact).Done?
    ensures 0 <= a <= b <= |pkgs|
    ensures compact ==> b == |pkgs|
    ensures !compact ==>
      forall j :: b <= j < |pkgs| ==> j * 2 + 1 + |pkgs[j]| < remaining - |Dotted(pkgs[j + 1..])|
    ensures !compact && b > 0 ==> (b - 1) * 2 + 1 + |pkgs[b - 1]| >= remaining - |Dotted(pkgs[b..])|
    ensures b - a == Min(b, Max(remaining - |Dotted(pkgs[b..])|, 0) / 2)
    ensures forall j :: a <= j < b ==> |pkgs[j]| > 0
    ensures FoldPackages(pkgs, remaining, compact).value == Initials(pkgs[a..b]) + Dotted(pkgs[b..])
  {
    b := if compact then |pkgs| else WholeStart(pkgs, remaining);
    a := b - AbbreviatedCount(b, remaining - |Dotted(pkgs[b..])|);
    if !compact {
      WholeStartIsLeast(pkgs, remaining);
      assert WholeFrom(pkgs, remaining, b);
    }
    FoldPackagesMatches(pkgs, remaining, compact);
    RunRenderingDone(pkgs, b, remaining);
    AbbreviatedCountIsHalf(b, remaining - |Dotted(pkgs[b..])|);
  }

  /** A completed rendering abbreviates only non-empty segments. */
  lemma RunRenderingDone(pkgs: seq<string>, b: nat, remaining: int)
    requires b <= |pkgs| && RunRendering(pkgs, b, remaining).Done?
    ensures var a := b - AbbreviatedCount(b, remaining - |Dotted(pkgs[b..])|);
      && (forall j :: a <= j < b ==> |pkgs[j]| > 0)
      && RunRendering(pkgs, b, remaining).value == Initials(pkgs[a..b]) + Dotted(pkgs[b..])
  {
    var a := b - AbbreviatedCount(b, remaining - |Dotted(pkgs[b..])|);
    forall j | a <= j < b ensures |pkgs[j]| > 0 {
      assert pkgs[j] == pkgs[a..b][j - a];
    }
  }

  /** The class name: the segment after the last dot. */
  function ClassName(input: string): (r: string)
    ensures '.' !in r
    ensures IsSuffix(r, input)
  {
    var parts := Split(input, '.');
    LastPartIsSuffix(input, '.');
    parts[|parts| - 1]
  }

  /** The package segments: everything before the last dot, split on dots. */
  function Packages(input: string): (r: seq<string>)
    ensures forall k :: 0 <= k < |r| ==> '.' !in r[k]
  {
    var parts := Split(input, '.');
    parts[..|parts| - 1]
  }

  /** The package segments followed by the class name, joined with dots, give
      back the class path. */
  lemma ClassPathRoundTrip(input: string)
    ensures Join(Packages(input) + [ClassName(input)], '.') == input
  {
    var parts := Split(input, '.');
    JoinSplit(input, '.');
    assert parts == parts[..|parts| - 1] + [parts[|parts| - 1]];
  }

  /** The transform. The Go code compares the rune count of the input with
      `cap` but measures and slices the class name and its sub-words in
      bytes; on ASCII input the two agree, which the model requires whenever
      the fold actually runs. */
  function JvmClassPathFold(cap: int, ctx: Context, input: string): (r: Outcome<string>)
    requires ctx.disableTruncate || |input| <= cap || IsAscii(input)
    ensures ctx.disableTruncate || |input| <= cap ==> r == Done(input)
    ensures r.Done? && !ctx.disableTruncate && |ClassName(input)| <= cap ==>
      |r.value| <= cap && IsSuffix(ClassName(input), r.value)
    ensures r.Done? && !ctx.disableTruncate && |r.value| > cap ==> '.' !in r.value
  {
    if ctx.disableTruncate then Done(input)
    else if |input| <= cap then
      LastPartIsSuffix(input, '.');
      Done(input)
    else
      var parts := Split(input, '.');
      var cls :- FoldClassName(parts[|parts| - 1], cap);
      var packages :- FoldPackages(parts[..|parts| - 1], cls.remaining, cls.compact);
      CompactedHasNoDot(parts[|parts| - 1], cap);
      Done(packages + cls.text)
  }

  /** The fold, once it runs, is the class-name step followed by the
      package step on what the class name left of the budget. */
  lemma FoldSteps(cap: int, ctx: Context, input: string)
    requires !ctx.disableTruncate && |input| > cap && IsAscii(input)
    ensures var c := FoldClassName(ClassName(input), cap);
      JvmClassPathFold(cap, ctx, input) ==
        if c.Panic? then Panic
        else
          var p := FoldPackages(Packages(input), c.value.remaining, c.value.compact);
          if p.Panic? then Panic else Done(p.value + c.value.text)
  {
  }

  /** What the fold produces when it runs. If the class name fits, the
      result is a run of packages (a suffix of the package list, abbreviated
      then whole) followed by the class name. If it does not fit but all its
      sub-words do, the class name loses its underscores and the packages are
      as before. Otherwise compact mode starts at the first overflowing
      sub-word `f`: the result holds no package, begins with the sub-words
      before `f` verbatim, is `|words| - f` runes longer than `cap`, and is
      exactly the concatenation of the cuts `CompactCut` describes. */
  lemma FoldShape(cap: int, ctx: Context, input: string)
    requires !ctx.disableTruncate && |input| > cap && IsAscii(input)
    requires JvmClassPathFold(cap, ctx, input).Done?
    ensures var out := JvmClassPathFold(cap, ctx, input).value;
      var name := ClassName(input);
      var words := SubWords(name);
      var f := FirstOverflow(words, cap);
      && (|name| <= cap ==>
            IsSuffix(name, out) && KeptSuffix(Packages(input), out[..|out| - |name|], false))
      && (|name| > cap && f == |words| ==>
            IsSuffix(Delete(name, '_'), out) && KeptSuffix(Packages(input), out[..|out| - |Delete(name, '_')|], false))
      && (|name| > cap && f < |words| ==>
            && |out| == cap + |words| - f && Concat(words[..f]) <= out
            && exists pieces :: CompactCut(words, pieces, f, cap) && out == Concat(pieces))
  {
    FoldSteps(cap, ctx, input);
    var out := JvmClassPathFold(cap, ctx, input).value;
    var name := ClassName(input);
    var cls := FoldClassName(name, cap).value;
    if |name| <= cap {
      KeptPart(out, Packages(input), cls.text, cls.remaining);
    } else {
      var words := SubWords(name);
      FoldWordsSwitch(words, cap);
      if FirstOverflow(words, cap) == |words| {
        KeptPart(out, Packages(input), cls.text, cls.remaining);
      } else {
        assert FoldPackages(Packages(input), cls.remaining, cls.compact) == Done("");
        FoldWordsCuts(words, cap);
        CompactPart(out, words, FoldWords(words, cap, false).value.pieces, FirstOverflow(words, cap), cap);
      }
    }
  }

  lemma KeptPart(out: string, pkgs: seq<string>, text: string, remaining: int)
    requires FoldPackages(pkgs, remaining, false).Done?
    requires out == FoldPackages(pkgs, remaining, false).value + text
    ensures IsSuffix(text, out)
    ensures KeptSuffix(pkgs, out[..|out| - |text|], false)
  {
    PackagesShape(pkgs, remaining, false);
    assert out[..|out| - |text|] == FoldPackages(pkgs, remaining, false).value;
  }

  /** A compacted class name: the sub-words before `f` whole, sub-word `f`
      cut to what the budget leaves it plus one rune, and every later
      sub-word cut to its first two runes. Each piece is a prefix of its
      sub-word, so the lengths fix the pieces. */
  ghost predicate CompactCut(words: seq<string>, pieces: seq<string>, f: nat, remaining: int) {
    && f < |words| == |pieces|
    && pieces[..f] == words[..f]
    && (forall k :: 0 <= k < |words| ==> pieces[k] <= words[k])
    && |pieces[f]| == remaining - |Concat(words[..f])| - (|words| - f - 1) + 1
    && forall k :: f < k < |words| ==> |pieces[k]| == 2
  }

  lemma CompactPart(out: string, words: seq<string>, pieces: seq<string>, f: nat, remaining: int)
    requires f < |words| == |pieces| && pieces[..f] == words[..f]
    requires forall k :: 0 <= k < |words| ==> pieces[k] <= words[k]
    requires |pieces[f]| == remaining - |Concat(words[..f])| - (|words| - f - 1) + 1
    requires forall k :: f < k < |words| ==> |pieces[k]| == 2
    requires out == "" + Concat(pieces)
    ensures Concat(words[..f]) <= out
    ensures exists ps :: CompactCut(words, ps, f, remaining) && out == Concat(ps)
  {
    assert CompactCut(words, pieces, f, remaining);
    ConcatAppend(pieces[..f], pieces[f..]);
    assert pieces == pieces[..f] + pieces[f..];
  }

  /** When the class name is not compacted, what precedes it in the result
      is exactly `PackagesRendering` of the package list on the budget the
      class name left: which segments are kept whole, abbreviated or dropped
      is fixed by the switch test and the budget. */
  lemma FoldRendersPackages(cap: int, ctx: Context, input: string)
    requires !ctx.disableTruncate && |input| > cap && IsAscii(input)
    requires JvmClassPathFold(cap, ctx, input).Done?
    ensures var out := JvmClassPathFold(cap, ctx, input).value;
      var name := ClassName(input);
      var text := if |name| <= cap then name else Delete(name, '_');
      (|name| <= cap || FirstOverflow(SubWords(name), cap) == |SubWords(name)|) ==>
        && IsSuffix(text, out)
        && PackagesRendering(Packages(input), cap - |text|, false) == Done(out[..|out| - |text|])
  {
    FoldSteps(cap, ctx, input);
    var name := ClassName(input);
    if |name| <= cap || FirstOverflow(SubWords(name), cap) == |SubWords(name)| {
      ClassNameKept(name, cap);
      var cls := FoldClassName(name, cap).value;
      PackagesPart(JvmClassPathFold(cap, ctx, input).value, Packages(input), cls.text, cls.remaining);
    }
  }

  /** A class name that fits, or whose sub-words all fit, is rendered
      without compact mode: verbatim, or without its underscores. */
  lemma ClassNameKept(name: string, cap: int)
    requires FoldClassName(name, cap).Done?
    requires |name| <= cap || FirstOverflow(SubWords(name), cap) == |SubWords(name)|
    ensures var c := FoldClassName(name, cap).value;
      && !c.compact
      && c.text == (if |name| <= cap then name else Delete(name, '_'))
      && c.remaining == cap - |c.text|
  {
    if |name| > cap {
      FoldWordsSwitch(SubWords(name), cap);
    }
  }

  lemma PackagesPart(out: string, pkgs: seq<string>, text: string, remaining: int)
    requires FoldPackages(pkgs, remaining, false).Done?
    requires out == FoldPackages(pkgs, remaining, false).value + text
    ensures IsSuffix(text, out)
    ensures PackagesRendering(pkgs, remaining, false) == Done(out[..|out| - |text|])
  {
    FoldPackagesMatches(pkgs, remaining, false);
    assert out[..|out| - |text|] == FoldPackages(pkgs, remaining, false).value;
  }

  /** A compacted class name is built from pieces of its own sub-words, so it
      holds no dot. */
  lemma CompactedHasNoDot(name: string, remaining: int)
    requires '.' !in name
    requires FoldClassName(name, remaining).Done?
    ensures '.' !in FoldClassName(name, remaining).value.text
  {
    if |name| > remaining {
      var words := SubWords(name);
      var pieces := FoldWords(words, remaining, false).value.pieces;
      SubWordRunes(name);
      forall k | 0 <= k < |pieces| ensures '.' !in pieces[k] {
        assert pieces[k] <= words[k];
        forall j | 0 <= j < |pieces[k]| ensures pieces[k][j] != '.' {
          assert pieces[k][j] == words[k][j];
          assert words[k][j] in name;
        }
      }
      NoDotInConcat(pieces);
    }
  }

  lemma {:induction false} NoDotInConcat(parts: seq<string>)
    requires forall k :: 0 <= k < |parts| ==> '.' !in parts[k]
    ensures '.' !in Concat(parts)
    decreases |parts|
  {
    if |parts| > 0 {
      NoDotInConcat(parts[1..]);
    }
  }
}

=== FILE: fold_examples.dfy ===
/**
  Worked instances of `JvmClassPathFold` on the class path
  `com.example.service.MyHandlerClass` (34 runes) at three widths, the
  pieces its compacted class name must consist of, two inputs on which the
  Go code panics, and a list of sub-words on which the class-name loop
  panics.

  The inputs come in as parameters fixed by a `requires` rather than as
  literals in the call, and expected results are written as concatenations
  of their parts: both keep the verifier from unfolding the recursive
  definitions on whole literal strings, and the concatenations let each
  step's result be matched piece by piece.
 */
module FoldExamples {
  import opened Base
  import opened Strings
  import opened CamelCase
  import opened ClassPathFold

  const Handler: string := "com.example.service.MyHandlerClass"

  lemma SplitEnds(input: string, pkgs: seq<string>, cls: string)
    requires Split(input, '.') == pkgs + [cls]
    ensures ClassName(input) == cls && Packages(input) == pkgs
  {
    assert (pkgs + [cls])[..|pkgs|] == pkgs;
  }

  lemma SplitHandlerParts(input: string, a: string, b: string, c: string, d: string)
    requires a == "com" && b == "example" && c == "service" && d == "MyHandlerClass"
    requires input == Handler
    ensures Split(input, '.') == [a, b, c, d]
  {
    JoinHandler(input, a, b, c, d);
    SplitFour(a, b, c, d);
  }

  lemma JoinHandler(input: string, a: string, b: string, c: string, d: string)
    requires a == "com" && b == "example" && c == "service" && d == "MyHandlerClass"
    requires input == Handler
    ensures input == a + ['.'] + (b + ['.'] + (c + ['.'] + d))
  {
  }

  lemma SplitFour(a: string, b: string, c: string, d: string)
    requires '.' !in a && '.' !in b && '.' !in c && '.' !in d
    ensures Split(a + ['.'] + (b + ['.'] + (c + ['.'] + d)), '.') == [a, b, c, d]
  {
    SplitWhole(d, '.');
    SplitAtFirst(c, d, '.');
    SplitAtFirst(b, c + ['.'] + d, '.');
    SplitAtFirst(a, b + ['.'] + (c + ['.'] + d), '.');
  }

  lemma HandlerIsAscii(input: string)
    requires input == Handler
    ensures IsAscii(input) && |input| == 34
  {
  }

  /** At width 20 the class name fits and every package is abbreviated. */
  lemma FoldHandler20(ctx: Context, input: string)
    requires !ctx.disableTruncate && input == Handler
    ensures JvmClassPathFold(20, ctx, input) == Done("c.e.s." + "MyHandlerClass")
  {
    HandlerIsAscii(input);
    SplitHandlerParts(input, "com", "example", "service", "MyHandlerClass");
    FoldHandlerAt20(ctx, input);
  }

  lemma FoldHandlerAt20(ctx: Context, input: string)
    requires !ctx.disableTruncate && IsAscii(input) && |input| == 34
    requires Split(input, '.') == ["com", "example", "service", "MyHandlerClass"]
    ensures JvmClassPathFold(20, ctx, input) == Done("c.e.s." + "MyHandlerClass")
  {
    SplitEnds(input, ["com", "example", "service"], "MyHandlerClass");
    FoldSteps(20, ctx, input);
    var name := ClassName(input);
    assert FoldClassName(name, 20) == Done(ClassFold(name, 6, false));
    AbbreviateAll(Packages(input));
  }

  lemma AbbreviateAll(pkgs: seq<string>)
    requires pkgs == ["com", "example", "service"]
    ensures FoldPackages(pkgs, 6, false) == Done("c.e.s.")
  {
    var l2 := FoldPackages(pkgs[..2], 4, true);
    assert l2 == Done("c.e.") by {
      AbbreviateTwo(pkgs[..2]);
    }
    assert l2.value + [pkgs[2][0], '.'] == "c.e.s.";
  }

  lemma AbbreviateTwo(pkgs: seq<string>)
    requires pkgs == ["com", "example"]
    ensures FoldPackages(pkgs, 4, true) == Done("c.e.")
  {
    var l1 := FoldPackages(pkgs[..1], 2, true);
    assert l1 == Done("c.") by {
      AbbreviateCom(pkgs[..1]);
    }
    assert l1.value + [pkgs[1][0], '.'] == "c.e.";
  }

  lemma AbbreviateCom(pkgs: seq<string>)
    requires pkgs == ["com"]
    ensures FoldPackages(pkgs, 2, true) == Done("c.")
  {
    var l0 := FoldPackages(pkgs[..0], 0, true);
    assert l0 == Done("");
    assert l0.value + [pkgs[0][0], '.'] == "c.";
  }

  /** At width 28 the innermost package is kept whole as well. */
  lemma FoldHandler28(ctx: Context, input: string)
    requires !ctx.disableTruncate && input == Handler
    ensures JvmClassPathFold(28, ctx, input) == Done("c.e.service." + "MyHandlerClass")
  {
    HandlerIsAscii(input);
    SplitHandlerParts(input, "com", "example", "service", "MyHandlerClass");
    FoldHandlerAt28(ctx, input);
  }

  lemma FoldHandlerAt28(ctx: Context, input: string)
    requires !ctx.disableTruncate && IsAscii(input) && |input| == 34
    requires Split(input, '.') == ["com", "example", "service", "MyHandlerClass"]
    ensures JvmClassPathFold(28, ctx, input) == Done("c.e.service." + "MyHandlerClass")
  {
    SplitEnds(input, ["com", "example", "service"], "MyHandlerClass");
    FoldSteps(28, ctx, input);
    var name := ClassName(input);
    assert FoldClassName(name, 28) == Done(ClassFold(name, 14, false));
    KeepInnermost(Packages(input));
  }

  lemma KeepInnermost(pkgs: seq<string>)
    requires pkgs == ["com", "example", "service"]
    ensures FoldPackages(pkgs, 14, false) == Done("c.e.service.")
  {
    var l2 := FoldPackages(pkgs[..2], 6, false);
    assert l2 == Done("c.e.") by {
      var p := pkgs[..2];
      var l1 := FoldPackages(p[..1], 4, true);
      assert l1 == Done("c.") by {
        var q := p[..1];
        var l0 := FoldPackages(q[..0], 2, true);
        assert l0 == Done("");
        assert l0.value + [q[0][0], '.'] == "c.";
      }
      assert l1.value + [p[1][0], '.'] == "c.e.";
    }
    assert l2.value + pkgs[2] + "." == "c.e.service.";
  }

  /** At width 5 the class name itself is compacted: `My` is kept, `Handler`
      and `Class` are cut, and every package is dropped. The result is seven
      runes, two over the width, one for each cut sub-word. */
  lemma FoldHandler5(ctx: Context, input: string)
    requires !ctx.disableTruncate && input == Handler
    ensures JvmClassPathFold(5, ctx, input) == Done("MyHanCl")
  {
    HandlerIsAscii(input);
    SplitHandlerParts(input, "com", "example", "service", "MyHandlerClass");
    FoldHandlerAt5(ctx, input);
  }

  lemma FoldHandlerAt5(ctx: Context, input: string)
    requires !ctx.disableTruncate && IsAscii(input) && |input| == 34
    requires Split(input, '.') == ["com", "example", "service", "MyHandlerClass"]
    ensures JvmClassPathFold(5, ctx, input) == Done("MyHanCl")
  {
    SplitEnds(input, ["com", "example", "service"], "MyHandlerClass");
    FoldSteps(5, ctx, input);
    CompactHandler(ClassName(input));
    assert FoldPackages(Packages(input), 0, true) == Done("");
    assert "" + "MyHanCl" == "MyHanCl";
  }

  lemma CompactHandler(name: string)
    requires name == "MyHandlerClass"
    ensures FoldClassName(name, 5) == Done(ClassFold("MyHanCl", 0, true))
  {
    SubWordsExampleCamel(name);
    CutHandler(["My", "Handler", "Class"]);
    assert Concat(["My", "Han", "Cl"]) == "MyHanCl";
  }

  lemma CutHandler(words: seq<string>)
    requires words == ["My", "Handler", "Class"]
    ensures FoldWords(words, 5, false) == Done(WordsFold(["My", "Han", "Cl"], 0, true))
  {
    var w1 := words[1..];
    var w2 := w1[1..];
    var r2 := FoldWords(w2[1..], 0, true);
    assert r2 == Done(WordsFold([], 0, true));
    var r1 := FoldWords(w2, 1, true);
    assert r1 == Done(WordsFold([w2[0][..2]] + r2.value.pieces, 0, true));
    assert w2[0][..2] == "Cl";
    assert [w2[0][..2]] + r2.value.pieces == ["Cl"];
    var r0 := FoldWords(w1, 3, false);
    assert r0 == Done(WordsFold([w1[0][..3]] + r1.value.pieces, 0, true));
    assert w1[0][..3] == "Han";
    assert [w1[0][..3]] + r1.value.pieces == ["Han", "Cl"];
    assert [words[0]] + r0.value.pieces == ["My", "Han", "Cl"];
  }

  /** The cut lengths fix the compacted class name: at width 5 the only
      pieces of `My`, `Handler`, `Class` that `CompactCut` admits, with
      compact mode starting at `Handler`, are `My`, `Han`, `Cl`. */
  lemma HandlerCutIsUnique(words: seq<string>, pieces: seq<string>)
    requires words == ["My", "Handler", "Class"]
    requires CompactCut(words, pieces, 1, 5)
    ensures pieces == ["My", "Han", "Cl"]
  {
    assert words[..1] == ["My"];
    assert Concat(words[..1]) == "My" + Concat([]);
    assert pieces[0] == words[..1][0];
    assert |pieces[1]| == 3 && pieces[1] <= words[1];
    assert |pieces[2]| == 2 && pieces[2] <= words[2];
    assert pieces[1] == words[1][..3] == "Han";
    assert pieces[2] == words[2][..2] == "Cl";
  }

  /** `AbCdE` at width 4: `Ab` fits, `Cd` starts compact mode, and the cut
      for `E` is two runes, past its end, so Go panics. */
  lemma FoldPanics(ctx: Context, input: string)
    requires !ctx.disableTruncate && input == "AbCdE"
    ensures JvmClassPathFold(4, ctx, input) == Panic
  {
    AbCdEFacts(input);
    MarkAbCdE(input);
    SubWordsOfThree(input, "Ab", "Cd", "E");
    FoldPanicsAt(ctx, input);
  }

  lemma AbCdEFacts(input: string)
    requires input == "AbCdE"
    ensures IsAscii(input) && |input| == 5 && Split(input, '.') == [input]
  {
    assert Join([input], '.') == input;
    SplitJoin([input], '.');
  }

  lemma FoldPanicsAt(ctx: Context, input: string)
    requires !ctx.disableTruncate && IsAscii(input) && |input| == 5
    requires Split(input, '.') == [input] && SubWords(input) == ["Ab", "Cd", "E"]
    ensures JvmClassPathFold(4, ctx, input) == Panic
  {
    SplitEnds(input, [], input);
    FoldSteps(4, ctx, input);
    CutAbCdEPanics(SubWords(input));
  }

  lemma CutAbCdEPanics(words: seq<string>)
    requires words == ["Ab", "Cd", "E"]
    ensures FoldWords(words, 4, false) == Panic
  {
    assert words[1..] == ["Cd", "E"];
    assert words[1..][1..] == ["E"];
    assert FoldWords(["E"], 1, true) == Panic;
    assert FoldWords(["Cd", "E"], 2, false) == Panic;
  }

  /** The sub-words of `a.HandlerForX` at width 8: `Handler` already
      overflows, so compact mode starts at once and the last sub-word `X`
      cannot give the two runes its cut needs. */
  lemma HandlerForXPanics(words: seq<string>)
    requires words == ["Handler", "For", "X"]
    ensures FoldWords(words, 8, false) == Panic
  {
    FoldWordsCompletes(words, 8);
    assert FirstOverflow(words, 8) == 0;
    assert |words[2]| == 1;
  }

  /** A rewrite with two underscores splits into the three runs around them. */
  lemma SubWordsOfThree(name: string, a: string, b: string, c: string)
    requires '_' !in a && '_' !in b && '_' !in c
    requires Mark(name) == a + ['_'] + b + ['_'] + c
    ensures SubWords(name) == [a, b, c]
  {
    assert [a, b, c][1..] == [b, c];
    assert [b, c][1..] == [c];
    assert Join([b, c], '_') == b + ['_'] + c;
    assert a + ['_'] + (b + ['_'] + c) == a + ['_'] + b + ['_'] + c;
    SplitJoin([a, b, c], '_');
  }

  lemma MarkAbCdE(name: string)
    requires name == "AbCdE"
    ensures Mark(name) == "Ab" + ['_'] + "Cd" + ['_'] + "E"
  {
    var tail := name[3..];
    assert "" + tail == tail;
    MarkThroughCapital("", tail);
    assert tail[2..] == "";
    MarkThroughCapital(name[..1], name[1..]);
    assert name == name[..1] + name[1..];
  }

  /** `x..Yz` at width 4: the class name `Yz` fits and leaves 2 runes; the
      empty segment between the dots is abbreviated to its first rune, which
      does not exist, so Go panics. */
  lemma FoldEmptySegmentPanics(ctx: Context, input: string)
    requires !ctx.disableTruncate && input == "x..Yz"
    ensures JvmClassPathFold(4, ctx, input) == Panic
  {
    var parts := ["x", "", "Yz"];
    assert Join(parts, '.') == input;
    SplitJoin(parts, '.');
    assert parts[..2] == ["x", ""];
    assert FoldClassName(parts[2], 4) == Done(ClassFold("Yz", 2, false));
    assert FoldPackages(["x", ""], 2, false) == Panic;
  }
}

=== FILE: padding.dfy ===
/**
  `LeftPad` and `RightPad`: widen a string with spaces to a fixed width.
  Neither consults the rendering context.
 */
module Padding {
  import opened Base

  /** `n` space characters. */
  function Spaces(n: nat): (s: string)
    ensures |s| == n
    ensures forall i :: 0 <= i < n ==> s[i] == ' '
    decreases n
  {
    if n == 0 then "" else [' '] + Spaces(n - 1)
  }

  /** Prepend spaces until the input is `width` runes wide; a wider input is
      returned unchanged. */
  function LeftPad(width: int, input: string): (r: string)
    ensures |r| == Max(width, |input|)
    ensures IsSuffix(input, r)
    ensures forall i :: 0 <= i < |r| - |input| ==> r[i] == ' '
  {
    var spaces := width - |input|;
    if spaces <= 0 then input else Spaces(spaces) + input
  }

  /** Append spaces until the input is `width` runes wide; a wider input is
      returned unchanged. */
  function RightPad(width: int, input: string): (r: string)
    ensures |r| == Max(width, |input|)
    ensures input <= r
    ensures forall i :: |input| <= i < |r| ==> r[i] == ' '
  {
    var pad := width - |input|;
    if pad <= 0 then input else input + Spaces(pad)
  }

  /** Padding leaves the input alone exactly when it is already wide enough. */
  lemma PadUnchangedIff(width: int, input: string)
    ensures LeftPad(width, input) == input <==> |input| >= width
    ensures RightPad(width, input) == input <==> |input| >= width
  {
  }

  /** A padded string is as wide as asked, so padding it again changes nothing. */
  lemma PadIdempotent(width: int, input: string)
    ensures LeftPad(width, LeftPad(width, input)) == LeftPad(width, input)
    ensures RightPad(width, RightPad(width, input)) == RightPad(width, input)
  {
  }
}

=== FILE: strings.dfy ===
/**
  The pieces of Go's `strings` package the fold relies on: `Split` on a
  one-character separator, its inverse `Join`, and concatenation of a list
  of strings.
 */
module Strings {

  import opened Base

  /** Go's `strings.Split(s, string(sep))`: the maximal `sep`-free runs of `s`,
      one more of them than there are separators. The empty string gives `[""]`. */
  function Split(s: string, sep: char): (parts: seq<string>)
    ensures |parts| >= 1
    ensures forall k :: 0 <= k < |parts| ==> sep !in parts[k]
    decreases |s|
  {
    if |s| == 0 then [""]
    else
      var rest := Split(s[1..], sep);
      if s[0] == sep then [""] + rest
      else [[s[0]] + rest[0]] + rest[1..]
  }

  /** The parts separated by one `sep` each (Go's `strings.Join`). */
  function Join(parts: seq<string>, sep: char): string
    requires |parts| >= 1
    decreases |parts|
  {
    if |parts| == 1 then parts[0] else parts[0] + [sep] + Join(parts[1..], sep)
  }

  /** The parts written one after another. */
  function Concat(parts: seq<string>): string
    decreases |parts|
  {
    if |parts| == 0 then "" else parts[0] + Concat(parts[1..])
  }

  /** `s` with every occurrence of `c` removed. */
  function Delete(s: string, c: char): (t: string)
    ensures |t| <= |s|
    ensures c !in t
    decreases |s|
  {
    if |s| == 0 then ""
    else if s[0] == c then Delete(s[1..], c)
    else [s[0]] + Delete(s[1..], c)
  }

  /** Splitting and re-joining on the same separator gives back the input. */
  lemma {:induction false} JoinSplit(s: string, sep: char)
    ensures Join(Split(s, sep), sep) == s
    decreases |s|
  {
    if |s| > 0 {
      var rest := Split(s[1..], sep);
      JoinSplit(s[1..], sep);
      if s[0] == sep {
        assert Split(s, sep)[1..] == rest;
      } else {
        var parts := Split(s, sep);
        if |rest| == 1 {
          assert parts == [[s[0]] + rest[0]];
        } else {
          assert parts[1..] == rest[1..];
          assert Join(rest, sep) == rest[0] + [sep] + Join(rest[1..], sep);
        }
        assert s == [s[0]] + s[1..];
      }
    }
  }

  /** Splitting `a + rest` where `a` holds no separator glues `a` onto the first part. */
  lemma {:induction false} SplitPrefix(a: string, rest: string, sep: char)
    requires sep !in a
    ensures Split(a + rest, sep) == [a + Split(rest, sep)[0]] + Split(rest, sep)[1..]
    decreases |a|
  {
    if |a| > 0 {
      assert (a + rest)[1..] == a[1..] + rest;
      SplitPrefix(a[1..], rest, sep);
      assert [a[0]] + (a[1..] + Split(rest, sep)[0]) == a + Split(rest, sep)[0];
    } else {
      var parts := Split(rest, sep);
      assert a + rest == rest;
      assert a + parts[0] == parts[0];
      assert parts == [parts[0]] + parts[1..];
    }
  }

  /** A string without the separator splits into itself alone. */
  lemma SplitWhole(a: string, sep: char)
    requires sep !in a
    ensures Split(a, sep) == [a]
  {
    SplitPrefix(a, "", sep);
    assert a + "" == a;
  }

  /** The first separator ends the first part. */
  lemma SplitAtFirst(a: string, rest: string, sep: char)
    requires sep !in a
    ensures Split(a + [sep] + rest, sep) == [a] + Split(rest, sep)
  {
    assert a + [sep] + rest == a + ([sep] + rest);
    SplitPrefix(a, [sep] + rest, sep);
    assert ([sep] + rest)[1..] == rest;
    assert a + "" == a;
  }

  /** Joining parts that hold no separator and splitting again gives back the parts. */
  lemma {:induction false} SplitJoin(parts: seq<string>, sep: char)
    requires |parts| >= 1
    requires forall k :: 0 <= k < |parts| ==> sep !in parts[k]
    ensures Split(Join(parts, sep), sep) == parts
    decreases |parts|
  {
    if |parts| == 1 {
      SplitPrefix(parts[0], "", sep);
      assert parts[0] + "" == parts[0];
    } else {
      var tail := Join(parts[1..], sep);
      SplitJoin(parts[1..], sep);
      assert parts[0] + [sep] + tail == parts[0] + ([sep] + tail);
      SplitPrefix(parts[0], [sep] + tail, sep);
      assert ([sep] + tail)[1..] == tail;
      assert Split([sep] + tail, sep) == [""] + parts[1..];
      assert parts[0] + "" == parts[0];
      assert parts == [parts[0]] + parts[1..];
    }
  }

  /** Concatenating the parts of a split drops exactly the separators. */
  lemma {:induction false} ConcatSplit(s: string, sep: char)
    ensures Concat(Split(s, sep)) == Delete(s, sep)
    decreases |s|
  {
    if |s| > 0 {
      var rest := Split(s[1..], sep);
      ConcatSplit(s[1..], sep);
      if s[0] == sep {
        assert Split(s, sep)[1..] == rest;
      } else {
        var parts := Split(s, sep);
        assert parts[1..] == rest[1..];
        assert Concat(rest) == rest[0] + Concat(rest[1..]);
      }
    }
  }

  /** `Concat` distributes over appending lists. */
  lemma {:induction false} ConcatAppend(a: seq<string>, b: seq<string>)
    ensures Concat(a + b) == Concat(a) + Concat(b)
    decreases |a|
  {
    if |a| == 0 {
      assert a + b == b;
    } else {
      assert (a + b)[1..] == a[1..] + b;
      ConcatAppend(a[1..], b);
    }
  }

  /** `Delete` distributes over concatenation. */
  lemma {:induction false} DeleteAppend(a: string, b: string, c: char)
    ensures Delete(a + b, c) == Delete(a, c) + Delete(b, c)
    decreases |a|
  {
    if |a| == 0 {
      assert a + b == b;
    } else {
      assert (a + b)[1..] == a[1..] + b;
      DeleteAppend(a[1..], b, c);
    }
  }

  /** Every rune of every part occurs in the split string. */
  lemma {:induction false} SplitRunes(s: string, sep: char)
    ensures forall k, j :: 0 <= k < |Split(s, sep)| && 0 <= j < |Split(s, sep)[k]| ==> Split(s, sep)[k][j] in s
    decreases |s|
  {
    if |s| > 0 {
      SplitRunes(s[1..], sep);
    }
  }

  /** The last part of a split is a suffix of the split string. */
  lemma LastPartIsSuffix(s: string, sep: char)
    ensures var parts := Split(s, sep); IsSuffix(parts[|parts| - 1], s)
  {
    JoinSplit(s, sep);
    JoinEndsWithLast(Split(s, sep), sep);
  }

  lemma {:induction false} JoinEndsWithLast(parts: seq<string>, sep: char)
    requires |parts| >= 1
    ensures IsSuffix(parts[|parts| - 1], Join(parts, sep))
    decreases |parts|
  {
    if |parts| > 1 {
      JoinEndsWithLast(parts[1..], sep);
      var tail := Join(parts[1..], sep);
      var last := parts[|parts| - 1];
      assert last == parts[1..][|parts[1..]| - 1];
      var j := Join(parts, sep);
      assert j == (parts[0] + [sep]) + tail;
      assert j[|j| - |last|..] == tail[|tail| - |last|..];
    }
  }
}

=== FILE: transformers.dfy ===
/**
  The `Transformer` interface: each transform kind, with its integer
  parameter, applied to a rendering context and an input string.
 */
module Transformers {
  import opened Base
  import Truncation
  import ClassPathFold
  import Padding

  /** The configurable transforms; each carries the Go integer it is declared as. */
  datatype Transformer =
    | Truncate(limit: int)
    | Ellipsize(remain: int)
    | JvmClassPathFold(cap: int)
    | LeftPad(width: int)
    | RightPad(width: int)
  {
    /** The transforms that `DisableTruncate` switches off. */
    predicate Shortens() {
      Truncate? || Ellipsize? || JvmClassPathFold?
    }
  }

  /** What the fold needs of its input to agree with the byte-level Go code. */
  predicate Applicable(t: Transformer, ctx: Context, input: string) {
    t.JvmClassPathFold? ==> ctx.disableTruncate || |input| <= t.cap || IsAscii(input)
  }

  /** `Transform(ctx, input)`. With `DisableTruncate` set, every shortening
      transform returns its input; the pads ignore the context and never
      panic; `Truncate` and `Ellipsize` never lengthen. */
  function Transform(t: Transformer, ctx: Context, input: string): (r: Outcome<string>)
    requires Applicable(t, ctx, input)
    ensures ctx.disableTruncate && t.Shortens() ==> r == Done(input)
    ensures !t.Shortens() ==> r.Done? && |r.value| >= |input|
    ensures (t.Truncate? || t.Ellipsize?) && r.Done? ==> |r.value| <= |input|
  {
    match t
    case Truncate(limit) => Truncation.Truncate(limit, ctx, input)
    case Ellipsize(remain) => Truncation.Ellipsize(remain, ctx, input)
    case JvmClassPathFold(cap) => ClassPathFold.JvmClassPathFold(cap, ctx, input)
    case LeftPad(width) => Done(Padding.LeftPad(width, input))
    case RightPad(width) => Done(Padding.RightPad(width, input))
  }

  /** The pads read nothing from the context. */
  lemma PadsIgnoreContext(t: Transformer, c1: Context, c2: Context, input: string)
    requires !t.Shortens()
    ensures Transform(t, c1, input) == Transform(t, c2, input)
  {
  }

  /** Every transform except the fold is idempotent: applying it to its own
      output changes nothing. */
  lemma TransformIdempotent(t: Transformer, ctx: Context, input: string)
    requires !t.JvmClassPathFold?
    requires Transform(t, ctx, input).Done?
    ensures Transform(t, ctx, Transform(t, ctx, input).value) == Transform(t, ctx, input)
  {
    match t
    case Truncate(limit) => Truncation.TruncateIdempotent(limit, ctx, input);
    case Ellipsize(remain) => Truncation.EllipsizeIdempotent(remain, ctx, input);
    case LeftPad(width) => Padding.PadIdempotent(width, input);
    case RightPad(width) => Padding.PadIdempotent(width, input);
  }
}

=== FILE: truncation.dfy ===
/**
  The two cutting transforms, `Truncate` and `Ellipsize`. Both measure the
  input in runes (characters here) and cut it by rune position; see the
  `Utf8` module for what the byte slicing of the Go code does instead on
  multi-byte input.
 */
module Truncation {
  import opened Base

  /** The single-rune marker that stands for the removed middle (U+2026). */
  const Ellipsis: char := '\U{2026}'

  /** `Truncate(limit)`: keep the first `limit` runes of an input longer than
      `limit`. A negative limit makes the Go slice `input[:limit]` panic. */
  function Truncate(limit: int, ctx: Context, input: string): (r: Outcome<string>)
    ensures ctx.disableTruncate || |input| <= limit ==> r == Done(input)
    ensures r.Panic? <==> !ctx.disableTruncate && limit < 0
    ensures r.Done? ==> r.value <= input
    ensures r.Done? && !ctx.disableTruncate ==> |r.value| == Min(|input|, limit)
  {
    if ctx.disableTruncate then Done(input)
    else if |input| <= limit then Done(input)
    else if 0 <= limit <= |input| then Done(input[..limit])
    else Panic
  }

  /** Truncating an already truncated string changes nothing. */
  lemma TruncateIdempotent(limit: int, ctx: Context, input: string)
    requires Truncate(limit, ctx, input).Done?
    ensures Truncate(limit, ctx, Truncate(limit, ctx, input).value) == Truncate(limit, ctx, input)
  {
  }

  /** `out` keeps the first `head` and last `tail` runes of `input` around one
      ellipsis, `remain` runes in all, where `head + tail == remain - 1` and the
      tail is the same length as the head or one longer. */
  ghost predicate Elided(input: string, out: string, remain: int) {
    var head := (remain - 1) / 2;
    var tail := remain - 1 - head;
    && 0 <= head <= tail <= head + 1
    && head + tail < |input|
    && |out| == remain
    && out[..head] == input[..head]
    && out[head] == Ellipsis
    && out[head + 1..] == input[|input| - tail..]
  }

  /** `Ellipsize(remain)`: replace the middle of an input longer than `remain`
      runes by one ellipsis so that `remain` runes remain. With `remain <= 0`
      the tail slice starts past the end of the input and Go panics. */
  function Ellipsize(remain: int, ctx: Context, input: string): (r: Outcome<string>)
    ensures ctx.disableTruncate || |input| <= remain ==> r == Done(input)
    ensures r.Panic? <==> !ctx.disableTruncate && |input| > remain && remain <= 0
    ensures r.Done? && !ctx.disableTruncate && |input| > remain ==> Elided(input, r.value, remain)
  {
    if ctx.disableTruncate then Done(input)
    else
      var length := |input|;
      if length <= remain then Done(input)
      else
        var budget := remain - 1;  // one rune goes to the ellipsis
        var chomped := length - budget;
        var start := GoHalf(budget);
        var end := start + chomped;
        if 0 <= start <= length && 0 <= end <= length then
          Done(input[..start] + [Ellipsis] + input[end..])
        else
          Panic
  }

  /** An ellipsized string already fits, so a second pass leaves it alone. */
  lemma EllipsizeIdempotent(remain: int, ctx: Context, input: string)
    requires Ellipsize(remain, ctx, input).Done?
    ensures Ellipsize(remain, ctx, Ellipsize(remain, ctx, input).value) == Ellipsize(remain, ctx, input)
  {
  }

  /** Ten runes squeezed into five keep two at the front and two at the back. */
  lemma EllipsizeExample(ctx: Context)
    requires !ctx.disableTruncate
    ensures Ellipsize(5, ctx, "abcdefghij") == Done("ab" + [Ellipsis] + "ij")
  {
    var input := "abcdefghij";
    assert input[..2] == "ab";
    assert input[8..] == "ij";
  }
}

=== FILE: utf8.dfy ===
/**
  The Go code measures strings in runes (`utf8.RuneCountInString`) but cuts
  them with byte slices (`input[:t]`, `input[end:]`), which index the UTF-8
  encoding. This module models that byte-level behaviour and compares it
  with the rune-level transforms of `Truncation`: on ASCII input the two
  agree; on multi-byte input the byte-level cut can split a rune or keep the
  wrong number of runes.
 */
module Utf8 {
  import opened Base
  import Truncation

  type byte = x: int | 0 <= x < 256

  /** The UTF-8 encoding of one rune (RFC 3629, section 3). */
  function EncodeChar(c: char): (b: seq<byte>)
    ensures 1 <= |b| <= 4
    ensures |b| == 1 <==> c as int < 0x80
    ensures b[0] < 0x80 <==> c as int < 0x80
  {
    var n := c as int;
    if n < 0x80 then [n]
    else if n < 0x800 then [0xC0 + n / 64, 0x80 + n % 64]
    else if n < 0x10000 then [0xE0 + n / 4096, 0x80 + (n / 64) % 64, 0x80 + n % 64]
    else [0xF0 + n / 262144, 0x80 + (n / 4096) % 64, 0x80 + (n / 64) % 64, 0x80 + n % 64]
  }

  /** The UTF-8 encoding of a string: the bytes Go indexes when it slices. */
  function Encode(s: string): (b: seq<byte>)
    ensures |b| >= |s|
    ensures IsAscii(s) ==> |b| == |s|
    decreases |s|
  {
    if |s| == 0 then [] else EncodeChar(s[0]) + Encode(s[1..])
  }

  /** On ASCII strings each rune is the one byte holding its code. */
  lemma {:induction false} EncodeAscii(s: string)
    requires IsAscii(s)
    ensures forall i :: 0 <= i < |s| ==> Encode(s)[i] == s[i] as int
    decreases |s|
  {
    if |s| > 0 {
      assert IsAscii(s[1..]) by {
        forall j | 0 <= j < |s| - 1 ensures s[1..][j] as int < 128 {
          assert s[1..][j] == s[j + 1];
        }
      }
      EncodeAscii(s[1..]);
    }
  }

  /** On ASCII strings, encoding commutes with taking a prefix or a suffix. */
  lemma EncodeSlices(s: string, i: int)
    requires IsAscii(s) && 0 <= i <= |s|
    ensures Encode(s)[..i] == Encode(s[..i])
    ensures Encode(s)[i..] == Encode(s[i..])
  {
    var p, q := s[..i], s[i..];
    assert IsAscii(p) by {
      forall j | 0 <= j < |p| ensures p[j] as int < 128 {
        assert p[j] == s[j];
      }
    }
    assert s == p + q;
    EncodeAppend(p, q);
    assert |Encode(p)| == i;
  }

  /** Encoding distributes over concatenation. */
  lemma {:induction false} EncodeAppend(a: string, b: string)
    ensures Encode(a + b) == Encode(a) + Encode(b)
    decreases |a|
  {
    if |a| == 0 {
      assert a + b == b;
    } else {
      assert (a + b)[1..] == a[1..] + b;
      EncodeAppend(a[1..], b);
    }
  }

  /** A lone lead byte of a multi-byte sequence is the encoding of no string. */
  lemma LeadByteAloneIsNoString(s: string, x: byte)
    requires x >= 0x80
    ensures Encode(s) != [x]
  {
    if |s| > 0 {
      var e := EncodeChar(s[0]);
      assert Encode(s)[..|e|] == e;
      if |e| == 1 {
        assert Encode(s)[0] == e[0] < 0x80;
      }
    }
  }

  /** `Truncate` as the Go code writes it: the rune count decides whether to
      cut, and the cut keeps the first `limit` bytes. */
  function TruncateAsWritten(limit: int, ctx: Context, input: string): (r: Outcome<seq<byte>>)
    ensures ctx.disableTruncate || |input| <= limit ==> r == Done(Encode(input))
    ensures r.Done? ==> r.value <= Encode(input)
    ensures r.Done? && !ctx.disableTruncate && |input| > limit ==> |r.value| == limit
    ensures r.Panic? <==> !ctx.disableTruncate && limit < 0
  {
    var bytes := Encode(input);
    if ctx.disableTruncate then Done(bytes)
    else if |input| <= limit then Done(bytes)
    else if 0 <= limit <= |bytes| then Done(bytes[..limit])
    else Panic
  }

  /** On ASCII input, cutting bytes is cutting runes. */
  lemma TruncateAgreesOnAscii(limit: int, ctx: Context, input: string)
    requires IsAscii(input)
    ensures var r := Truncation.Truncate(limit, ctx, input);
      TruncateAsWritten(limit, ctx, input) == if r.Done? then Done(Encode(r.value)) else Panic
  {
    if !ctx.disableTruncate && 0 <= limit < |input| {
      EncodeSlices(input, limit);
    }
  }

  /** `Truncate(1)` of `éa` keeps the byte 0xC3, the first half of `é`: the
      result is not the encoding of any string, while the rune-level cut
      keeps `é`. */
  lemma TruncateSplitsRune(ctx: Context, input: string)
    requires !ctx.disableTruncate && input == "éa"
    ensures TruncateAsWritten(1, ctx, input) == Done([0xC3])
    ensures forall s: string :: TruncateAsWritten(1, ctx, input) != Done(Encode(s))
    ensures Truncation.Truncate(1, ctx, input) == Done("é")
  {
    assert EncodeChar(input[0]) == [0xC3, 0xA9];
    assert Encode(input) == [0xC3, 0xA9] + Encode(input[1..]);
    assert Encode(input)[..1] == [0xC3];
    assert input[..1] == "é";
    forall s: string ensures TruncateAsWritten(1, ctx, input) != Done(Encode(s)) {
      LeadByteAloneIsNoString(s, 0xC3);
    }
  }

  /** `Ellipsize` as the Go code writes it: rune count and split points are
      computed in runes, but used as byte offsets. */
  function EllipsizeAsWritten(remain: int, ctx: Context, input: string): (r: Outcome<seq<byte>>)
    ensures ctx.disableTruncate || |input| <= remain ==> r == Done(Encode(input))
    ensures !ctx.disableTruncate && |input| > remain && remain >= 1 ==> r.Done?
    ensures !ctx.disableTruncate && |input| > remain && remain < 0 ==> r.Panic?
    ensures !ctx.disableTruncate && |input| > 0 == remain ==> (r.Done? <==> |Encode(input)| > |input|)
    ensures r.Done? && !ctx.disableTruncate && |input| > remain ==>
      |r.value| == |Encode(input)| - |input| + remain + 2
  {
    EllipsisIsThreeBytes();
    var bytes := Encode(input);
    if ctx.disableTruncate then Done(bytes)
    else
      var length := |input|;
      if length <= remain then Done(bytes)
      else
        var budget := remain - 1;
        var chomped := length - budget;
        var start := GoHalf(budget);
        var end := start + chomped;
        if 0 <= start <= |bytes| && 0 <= end <= |bytes| && start <= end then
          Done(bytes[..start] + Encode([Truncation.Ellipsis]) + bytes[end..])
        else
          Panic
  }

  /** The ellipsis U+2026 takes three bytes. */
  lemma EllipsisIsThreeBytes()
    ensures |Encode([Truncation.Ellipsis])| == 3
  {
    assert [Truncation.Ellipsis][1..] == [];
  }

  /** On ASCII input, the byte offsets are rune offsets. */
  lemma EllipsizeAgreesOnAscii(remain: int, ctx: Context, input: string)
    requires IsAscii(input)
    ensures var r := Truncation.Ellipsize(remain, ctx, input);
      EllipsizeAsWritten(remain, ctx, input) == if r.Done? then Done(Encode(r.value)) else Panic
  {
    if !ctx.disableTruncate && |input| > remain {
      var bytes := Encode(input);
      assert |bytes| == |input|;
      var budget := remain - 1;
      var start := GoHalf(budget);
      var end := start + |input| - budget;
      if remain > 0 {
        EncodeElided(input, start, end);
        assert Truncation.Ellipsize(remain, ctx, input) == Done(input[..start] + [Truncation.Ellipsis] + input[end..]);
        assert EllipsizeAsWritten(remain, ctx, input) ==
          Done(bytes[..start] + Encode([Truncation.Ellipsis]) + bytes[end..]);
      } else {
        assert end > |bytes| || start < 0;
      }
    }
  }

  lemma EncodeElided(input: string, start: int, end: int)
    requires IsAscii(input) && 0 <= start <= end <= |input|
    ensures Encode(input[..start] + [Truncation.Ellipsis] + input[end..]) ==
      Encode(input)[..start] + Encode([Truncation.Ellipsis]) + Encode(input)[end..]
  {
    EncodeSlices(input, start);
    EncodeSlices(input, end);
    EncodeAppend(input[..start], [Truncation.Ellipsis]);
    EncodeAppend(input[..start] + [Truncation.Ellipsis], input[end..]);
  }

  /** `Ellipsize(1)` of `éa` should give the lone ellipsis; the byte offsets
      drop only the two bytes of `é` and keep `a`, two runes in all. */
  lemma EllipsizeKeepsTooMuch(ctx: Context, input: string)
    requires !ctx.disableTruncate && input == "éa"
    ensures EllipsizeAsWritten(1, ctx, input) == Done(Encode([Truncation.Ellipsis, 'a']))
    ensures Truncation.Ellipsize(1, ctx, input) == Done([Truncation.Ellipsis])
  {
    assert EncodeChar(input[0]) == [0xC3, 0xA9];
    assert Encode(input) == [0xC3, 0xA9] + Encode(input[1..]);
    assert Encode(input[1..]) == [0x61];
    assert Encode(input)[2..] == Encode(input[1..]);
    assert Encode(input)[..0] + Encode([Truncation.Ellipsis]) + Encode(input)[2..] ==
      Encode([Truncation.Ellipsis]) + Encode("a");
    assert input[..0] + [Truncation.Ellipsis] + input[2..] == [Truncation.Ellipsis];
    EncodeAppend([Truncation.Ellipsis], "a");
    assert [Truncation.Ellipsis] + "a" == [Truncation.Ellipsis, 'a'];
  }

  /** With no room at all, `Ellipsize(0)` of `é` completes with the lone
      ellipsis: the two bytes of `é` cover the one rune the budget of -1
      over-counts. The rune-level transform, which cannot cut a rune in
      half, panics there as it does on every ASCII input that must be cut. */
  lemma EllipsizeZeroCompletes(ctx: Context, input: string)
    requires !ctx.disableTruncate && input == "é"
    ensures EllipsizeAsWritten(0, ctx, input) == Done(Encode([Truncation.Ellipsis]))
    ensures Truncation.Ellipsize(0, ctx, input) == Panic
  {
    assert EncodeChar(input[0]) == [0xC3, 0xA9];
    assert Encode(input) == [0xC3, 0xA9] + Encode(input[1..]);
    assert Encode(input[1..]) == [];
    assert GoHalf(-1) == 0;
    assert Encode(input)[..0] + Encode([Truncation.Ellipsis]) + Encode(input)[2..] ==
      Encode([Truncation.Ellipsis]);
  }
}
